=== FILE: README.md ===
# SpotTalk core in Dafny

SpotTalk is a map-pin story app. Users drop a marker on a map, give it a
name, a description, photos and comments, and browse the markers near them.
This project models the app's logic that can be stated as pre- and
postconditions:

- **Account input.** The server checks usernames and passwords rule by rule
  (`validateUsername`, `validatePassword`). Signup and login apply their
  checks in a fixed order. The signup page has its own password meter
  (`checkPasswordStrength`) and form check (`validateForm`), which do not
  agree with the server everywhere.
- **The spot store.** The `spots` table is a map from serial id to row.
  - The current list route normalises `image_url` when it is read. The
    single-spot route normalises `image_url` and also parses a stored
    string `comments`.
  - `POST /spots` checks its required fields and fills defaults. It runs the
    image loop, which skips falsy payloads and keeps upload order. The
    stored row is all or nothing: one failed upload means no row.
  - Both route files append comments with jsonb `||`.
  - The older routes create rows without a name and update stars with an
    integer-only check.
- **The proximity filter.** The sidebar keeps, in order, the markers within
  the radius of the current location. The distance is a parameter, so every
  result holds for any distance function, the haversine one included.
- **The home page.** Each listed spot becomes a story, with fallbacks for a
  falsy name or description. The first three stories are shown as cards.

JavaScript values are modelled by `Js.JsValue`, which covers undefined, null,
booleans, numbers, NaN, strings, arrays and objects. The model states the
JavaScript rules it relies on explicitly:

- truthiness;
- destructuring defaults, which apply only to `undefined`;
- `||` fallbacks;
- `Number.isInteger`;
- `for ... of` over an array or a string.

Foreign calls are parameters of the functions that make them:

- the password hash comparison (`verify`), which answers yes or no;
- the blob store (`upload`), which takes the number of the upload within
  the request and the base64 payload, stands for the decoding, the fresh
  file name and the store call together, and may fail;
- reading JSON text (`parse`), which may fail;
- the distance function (`dist`), which always answers a real number.

Some behaviours of the routes are easy to miss:

- A comment append to an unknown id answers 200 with no spot. It does not
  answer 404.
- A star update of an unknown id also answers 200 with no spot.
- After the single-spot read, `comments` need not be a list. A stored string
  goes through `JSON.parse` and may come back as a scalar. This is shown by
  `SpotsApi.CommentsMayReadBackAsScalar`.
- The current create refuses a falsy `lat`, `lng` or `name`, not only a
  missing one. The older one refuses a falsy `lat` or `lng`. A coordinate
  of exactly 0 is refused by both.

Modules: `Js` and `Results` (values and replies), `Chars` (character classes
and pattern searches), `Auth`, `SignupForm`, `SpotTable`, `SpotsApi`,
`LegacySpots`, `Proximity` and `HomePage`.

## Model

| member | source | states |
|---|---|---|
| Chars.Exists | backend/api/routes/auth.js:25-36 | a lookahead test for one character class succeeds iff some position of the string holds a character of that class |
| Chars.AllOf | backend/api/routes/auth.js:11 | `^[class]+$` matches iff the string is non-empty and every character is in the class |
| Chars.HasPair | backend/api/routes/auth.js:14 | `[.]{2}` / `[_]{2}` match iff two adjacent positions both hold that separator |
| Chars.EmailLike | backend/api/routes/auth.js:61 | `\S+@\S+\.\S+` is found somewhere in the string: an `@` after a non-space character, then at least one non-space character, then a `.` followed by a non-space character; a match needs at least five characters |
| Chars.EmailLikeInContext | backend/api/routes/auth.js:138 | the pattern is not anchored: any text before and after a matching string keeps it matching |
| Chars.EmailExample | backend/api/routes/auth.js:61 | the email pattern is not anchored: an address wrapped in other text still matches |
| Chars.EmailCounterExamples | backend/api/routes/auth.js:61 | the email pattern refuses a string with no dot after the `@`, one with the dot right after the `@`, and one with a space right before the `@` |
| Auth.ValidateUsername | backend/api/routes/auth.js:7-18 | no message iff the length is 2..32, every character is in `[a-z0-9._]` and no separator starts, ends or is doubled; otherwise the message of the first failing rule in the order length, characters, separators |
| Auth.ValidatePassword | backend/api/routes/auth.js:21-41 | no message iff length >= 8 with a lowercase, an uppercase, a digit, one of `@$!%*?&` and no whitespace; otherwise the first failing rule's message in that order |
| Auth.FirstClash | backend/api/routes/auth.js:66-72 | the first row whose email or username matches; none iff no row matches either |
| Auth.FirstWithEmail | backend/api/routes/auth.js:143-152 | a row with the given email from the table; none iff no row has it |
| Auth.Signup | backend/api/routes/auth.js:44-116 | username, then password, then email format, then duplicates: the first failure is a 400 with its message and nothing is inserted; success (201) iff all checks pass and no row shares the email or username, and appends exactly the new user |
| Auth.SignupReportsFirstClash | backend/api/routes/auth.js:71-79 | the duplicate message comes from the first clashing row: "Email already registered" when its email matches, even if the username is taken as well |
| Auth.SignupKeepsAccountsUnique | backend/api/routes/auth.js:65-89 | a successful signup keeps emails and usernames unique across the users table |
| Auth.Login | backend/api/routes/auth.js:133-158 | a malformed email is a 400; success iff a row has the email and the password verifies against its hash, answering that row; every other failure is the 401 "Invalid email or password" |
| Auth.LoginHidesWhichCheckFailed | backend/api/routes/auth.js:148-158 | an unknown email and a wrong password for a known one get identical replies |
| SignupForm.CheckPasswordStrength | frontend/src/components/Auth/SignupPage.js:22-41 | an empty password is score 0 'Enter password'; otherwise the score is the number of criteria met among length >= 8, an uppercase, a digit and a non-alphanumeric (so at most 4), labelled Weak for 0-1, then Fair, Good, Strong |
| SignupForm.LowercaseDoesNotScore | frontend/src/components/Auth/SignupPage.js:30-34 | swapping lowercase letters for other lowercase letters never changes score or label |
| SignupForm.LowercaseOnlyIsWeak | frontend/src/components/Auth/SignupPage.js:30-40 | an all-lowercase password scores at most 1 and is labelled Weak |
| SignupForm.ValidateForm | frontend/src/components/Auth/SignupPage.js:43-73 | a username error iff some of the length, character or end rules fails, carrying the message of the last failing one; an email error iff the pattern fails; a password error iff the meter scores below 2; a confirmation error iff the two passwords differ |
| SignupForm.HandleSubmit | frontend/src/components/Auth/SignupPage.js:88-118 | the form is sent, unchanged, iff every form check passes; otherwise the non-empty error map is shown |
| SignupForm.ServerPasswordIsStrong | frontend/src/components/Auth/SignupPage.js:30-39 | every password the server accepts scores 4, 'Strong', on the meter |
| SignupForm.FormPassesPasswordServerRefuses | frontend/src/components/Auth/SignupPage.js:63-66 | "Abcdefg1" passes the form's password check but the server refuses it for lacking a special character |
| SignupForm.ServerUsernamePassesForm | frontend/src/components/Auth/SignupPage.js:47-55 | a username the server accepts raises no username error on the form |
| SignupForm.FormMissesDoubledSeparators | frontend/src/components/Auth/SignupPage.js:53-55 | "a..b" passes the form's username checks while the server refuses it with the separator message |
| SignupForm.FormReportsLastFailingRule | frontend/src/components/Auth/SignupPage.js:47-55 | for "_" the form reports the end-separator message and the server the length message |
| SpotTable.EmptyTable | backend/api/index.js:42-43 | a new table has no rows and is well formed (each row under its own id, all ids below the next serial value) |
| SpotTable.SelectAll | backend/routes/spots.js:5-6 | `SELECT * FROM spots` gives one row per position of the database's order, each exactly as stored under that id, and as many rows as are stored |
| SpotTable.SelectAllListsEveryRowOnce | backend/routes/spots.js:5-6 | every stored row appears in the listing, and in a well-formed table no two listed rows share an id, so each row appears exactly once |
| SpotTable.Insert | backend/api/spots.js:98-110 | an insert gives the row a fresh serial id, adds exactly that row, keeps the table well formed and advances the serial value |
| SpotTable.JsonbConcat | backend/api/spots.js:126 | jsonb `||` with an array on the right gives an array ending in that array and beginning with the left array's elements, or with the left value itself when it is not an array |
| SpotTable.AppendComment | backend/api/spots.js:120-134 | for an existing id the comments become the old list plus the new comment and no other column or row changes; for an unknown id the reply is 200 with no spot and the table is untouched |
| SpotTable.AppendCommentKeepsValid | backend/api/spots.js:125-128 | the append keeps the table well formed |
| SpotTable.CommentsOnlyGrow | backend/routes/spots.js:39-42 | after an append the old comments are a prefix of the new list, which ends with the new comment |
| SpotTable.TwoAppendsKeepBoth | backend/api/spots.js:125-128 | two appends to the same spot both survive, in call order |
| SpotsApi.NormaliseImages | backend/api/spots.js:11-15 | a stored array is kept, a bare string becomes a one-element list, anything else the empty list |
| SpotsApi.NormaliseImagesRoundTrip | backend/api/spots.js:38-42 | normalising a normalised list changes nothing, and a stored URL list reads back exactly |
| SpotsApi.NormaliseComments | backend/api/spots.js:43-47 | stored comments: an array is kept, a string is the result of parsing it (possibly a failure), anything else is the empty array |
| SpotsApi.CommentsMayReadBackAsScalar | backend/api/spots.js:45-46 | a stored string whose text parses to a number reads back as that number, not as a list |
| SpotsApi.ListSpots | backend/api/spots.js:6-22 | as many views as stored rows, the i-th carrying the row stored under the i-th id of the database's order with its comments unchanged and its normalised image list |
| SpotsApi.ListSpotsShowsSelectAll | backend/api/spots.js:8-16 | the i-th view of the list route is the i-th row of `SELECT * FROM spots` with that row's normalised images |
| SpotsApi.GetSpot | backend/api/spots.js:25-55 | 404 "Spot not found" iff no row has the id; 500 iff the stored comments fail to parse; otherwise 200 with the row, its normalised images and its normalised comments |
| SpotsApi.BeforeComma | backend/api/spots.js:85 | the longest prefix without a comma: it stops at the first comma or at the end |
| SpotsApi.SecondField | backend/api/spots.js:85 | `split(',')[1]` is undefined iff there is no comma, and otherwise is the comma-free text between the first comma and the next one or the end |
| SpotsApi.SecondFieldOfDataUrl | backend/api/spots.js:85 | for a data URL `header,payload` with no comma in either part, `split(',')[1]` is exactly the payload |
| SpotsApi.UploadOne | backend/api/spots.js:81-91 | a payload yields a URL iff it is a string with a comma and the store answers a non-empty URL for this upload of the text after the comma; that answer is then the URL |
| SpotsApi.Kept | backend/api/spots.js:79 | the payloads the loop processes are no more than the payloads, and all truthy |
| SpotsApi.KeptAreTheTruthy | backend/api/spots.js:78-79 | the payloads the loop processes are exactly the truthy ones |
| SpotsApi.UploadTurn | backend/api/spots.js:78-94 | one loop turn: a falsy payload contributes nothing; any other one is the next upload of the request and contributes its URL, or fails iff that upload fails |
| SpotsApi.UploadImages | backend/api/spots.js:77-95 | the URL list never has more URLs than there were payloads |
| SpotsApi.UploadImagesAllOrNothing | backend/api/spots.js:88-91 | the URL list exists iff, for every j, the j-th truthy payload uploads as the j-th upload of the request |
| SpotsApi.UploadImagesCount | backend/api/spots.js:77-95 | there is exactly one URL per truthy payload |
| SpotsApi.UploadImagesInOrder | backend/api/spots.js:77-95 | the j-th URL is the store's answer to the j-th upload, which carries the j-th truthy payload |
| SpotsApi.EqualPayloadsUploadTwice | backend/api/spots.js:81-94 | two equal payloads in one request are two uploads, the first and the second, and the list holds the URL each of them got |
| SpotsApi.UploadImagesAppend | backend/api/spots.js:78-95 | the list for a concatenation of payloads is the concatenation of the two lists, the second part's uploads numbered after the first part's; it fails if either part fails |
| SpotsApi.UploadImagesLoop | backend/api/spots.js:77-95 | the loop as written (skip, stop at the first failure, push; each upload numbered by the URLs pushed before it) computes exactly the all-or-nothing URL list |
| SpotsApi.Iterate | backend/api/spots.js:78 | `for ... of` yields an array's elements, or a string's characters as one-character strings; any other value is not iterable |
| SpotsApi.CreateSpot | backend/api/spots.js:59-117 | a falsy lat, lng or name is a 400 with the table unchanged; a failed upload or non-iterable images is a 500 with the table unchanged; otherwise 201 with exactly one new row holding the uploaded URLs and the defaults 'Anonymous', 0 and [] for absent username, stars and comments |
| SpotsApi.CreateThenGet | backend/api/spots.js:98-110 | when `comments` is sent as an array or left out, reading back a created spot gives the uploaded URLs in upload order and those comments (`[]` when left out) |
| SpotsApi.CreateThenGetParsesComments | backend/api/spots.js:43-47 | when `comments` is sent as a string, reading back the created spot fails with 500 iff the text is not JSON, and otherwise gives the parsed value as its comments |
| SpotsApi.StoredUrlsBounded | backend/api/spots.js:77-95 | a stored image list has no more URLs than the request had payloads, and none is empty |
| LegacySpots.ApiListExtendsLegacyList | backend/routes/spots.js:3-11 | the current list route sends the same rows in the same order as the older one, which sends them as stored |
| LegacySpots.JsonbParameter | backend/routes/spots.js:22-24 | a raw request value in the jsonb `image_url` column: null and undefined store NULL, a string stores what its text reads as JSON (and fails when it is not JSON), numbers, booleans and objects store themselves, an empty array stores an empty object and a non-empty array or NaN fails |
| LegacySpots.LegacyCreate | backend/routes/spots.js:14-31 | a falsy lat or lng is a 400 with the table unchanged (name not required); an `image_url` the jsonb column cannot take is a 500 with the table unchanged; otherwise 201 with one row added holding the column's reading of `image_url`, no name or description, and the defaults 'Anonymous', [] and 0 |
| LegacySpots.CreateRoutesDisagreeOnName | backend/routes/spots.js:17-19 | a body with coordinates and no name is refused with 400 by the current route, and stored by the older one exactly when its image column takes `image_url` |
| LegacySpots.LegacyImageIsJsonText | backend/routes/spots.js:22-29 | a string `image_url` is read as JSON text: a bare URL that is not JSON is a 500 with nothing stored, and the text of a JSON string stores that string, which the single-spot route reads back as a one-element list |
| LegacySpots.UpdateStars | backend/routes/spots.js:51-69 | a non-integer is a 400 with the table unchanged; any integer overwrites only that row's stars and answers the updated row; an unknown id is a 200 with no spot and no change |
| LegacySpots.UpdateStarsKeepsValid | backend/routes/spots.js:60-63 | a star update keeps the table well formed |
| LegacySpots.UpdateStarsLastWins | backend/routes/spots.js:60-63 | after two updates of the same row, the later accepted value is what remains |
| LegacySpots.StarsAndCommentsCommute | backend/routes/spots.js:34-69 | rating a spot and commenting on it give the same table in either order |
| Proximity.Nearby | frontend/src/components/Sidebarfilt/Sidebar.js:29-37 | every kept marker is one of the markers with distance <= radius, every marker with distance <= radius is kept, and no more markers come out than went in |
| Proximity.NearbyCounts | frontend/src/components/Sidebarfilt/Sidebar.js:36 | a marker within the radius is kept as many times as it occurs, one outside it not at all, and nothing is kept that was not there |
| Proximity.NearbyIsSubsequence | frontend/src/components/Sidebarfilt/Sidebar.js:29-37 | the kept markers are a subsequence of the markers, in their order |
| Proximity.NearbyMonotone | frontend/src/components/Sidebarfilt/Sidebar.js:36 | with a larger radius the kept markers of the smaller radius are a subsequence of the new result |
| Proximity.NearbyLoop | frontend/src/components/Sidebarfilt/Sidebar.js:29-37 | a loop over the markers computes the same selection as the filter |
| Proximity.InitialSidebar | frontend/src/components/Sidebarfilt/Sidebar.js:6-7 | the sidebar starts at radius 10 with an empty list |
| Proximity.RunEffect | frontend/src/components/Sidebarfilt/Sidebar.js:9-40 | with no location or no markers the previous list is kept; otherwise the list becomes the `Nearby` selection, an order-preserving selection of exactly the markers within the radius; the radius is never changed |
| Proximity.RunEffectCounts | frontend/src/components/Sidebarfilt/Sidebar.js:29-38 | after the effect, a marker within the radius is listed as many times as it occurs, and one outside it not at all |
| Proximity.EmptyMarkersKeepStaleList | frontend/src/components/Sidebarfilt/Sidebar.js:10 | once the markers become empty, the list from the last non-empty marker set is still shown |
| HomePage.Field | frontend/src/app/page.tsx:24-28 | a property read throws only on null or undefined, reads an object's field, and is undefined on any other value |
| HomePage.ToStory | frontend/src/app/page.tsx:24-29 | the story keeps the id, keeps a truthy name or description and otherwise uses "Unnamed Event" / "No description available.", and keeps images only if it is an array; a null element throws |
| HomePage.ToStories | frontend/src/app/page.tsx:23-30 | the mapping succeeds iff no element is null or undefined, and then gives one story per element in order |
| HomePage.LoadStories | frontend/src/app/page.tsx:17-36 | the stories are replaced iff the response is an array that maps without throwing; otherwise the previous list stays |
| HomePage.StoryCard | frontend/src/app/page.tsx:57-66 | a card shows the story's name and description, and an image iff the images are non-empty, namely the first one |
| HomePage.Cards | frontend/src/app/page.tsx:56-68 | one card per story, in order |
| HomePage.RenderHome | frontend/src/app/page.tsx:53-72 | the cards are those of the first min(3, n) stories in order, and the "No stories" line shows iff there are no stories |
| HomePage.CardsOrEmptyLine | frontend/src/app/page.tsx:56-72 | exactly one of the cards and the "No stories" line is shown |
| HomePage.OnlyFirstThreeShown | frontend/src/app/page.tsx:56 | stories after the third never change what the page shows |
| HomePage.ListedSpotJson | backend/api/spots.js:9-17 | a listed spot's JSON object carries the row's id, name and description and the normalised images under `images` |
| HomePage.StoriesFollowTheViews | frontend/src/app/page.tsx:21-30 | a list response read by the page gives one story per listed spot, in order, with its id, its `images` and the name and description fallbacks |
| HomePage.StoriesFollowTheRows | frontend/src/app/page.tsx:21-30 | from the table to the page: one story per stored row, in the order the database lists them, with the row's id, the route's normalised image list and the name and description fallbacks |

## Left out

- Express, CORS, sessions, cookies, the connection pool and the startup
  table creation and migration SQL are plumbing, so they are not modelled.
  `express.json` body parsing and the `/me` and `/logout` routes are left
  out too.
- Database failures are not modelled. Every route's `catch` branch that
  answers 500 for an unreachable store is therefore left out.
- bcrypt's salting, hashing and comparison are foreign. Signup takes the
  hash as a parameter and login takes the comparison as `verify`.
- Blob storage (`put`), `uuidv4` and the base64 decoding are foreign. They
  are one parameter, `upload`, which may fail or answer an empty URL.
  `JSON.parse` is the parameter `parse`.
- The blob store's contents are not modelled. In
  backend/api/spots.js:78-91 each image is stored before the next is
  tried, so the uploads made before a failure stay in the store although
  no row refers to them. Only the row insert is all or nothing.
- The `console.error` logging in the catch branches
  (backend/api/spots.js:19, 52, 114, 131) is not modelled.
- SpotsApi.UploadOne: the uuid file names are fresh across all requests,
  but `upload` only numbers the uploads within one request. Uploads of two
  different requests are told apart only by the `upload` passed to each.
- PostgreSQL column types are not modelled: FLOAT, INTEGER and VARCHAR
  casts and length limits. A row holds the value the route passed, with
  undefined stored as NULL. The one exception is the older create's
  `image_url`, which reaches its jsonb column raw and is read as JSON there
  (`LegacySpots.JsonbParameter`). The other jsonb parameters are
  `JSON.stringify` output and read back as the value sent.
- LegacySpots.UpdateStars: the INTEGER column's range is left out, so any
  integer is stored.
- Numbers are modelled as reals (`Js.JsValue`), so `Infinity`, `-0` and
  floating-point rounding are not represented; only NaN is kept apart.
- JSON serialisation round trips are taken as the identity. NaN becoming
  null and undefined object properties being dropped are not modelled.
- Concurrency and the atomicity of the in-database comment append are left
  out. Appends are sequential map updates.
- `calculateDistance` (the haversine formula) is floating-point
  trigonometry, so it is the parameter `dist`. NaN distances and a NaN
  radius typed into the input are not modelled.
- The server validators assume string fields. A non-string username or
  password in the request body, which makes `.length` or the regular
  expressions behave differently, is not modelled.
- Route ids are integers. The string id of the URL and Postgres's cast of
  it are not modelled.
- String lengths count characters. JavaScript counts UTF-16 code units, so
  characters outside the Basic Multilingual Plane count twice there; that
  difference is not modelled.
- `fetch`, React state hooks, navigation, `localStorage` and the markup
  beyond the cards and the empty line are UI plumbing. The signup page's
  server-error display after a failed request is not modelled either.
- The other pages and components (navbar, login page, map, about page,
  layout, story page) are not part of this model.
- SpotsApi.UploadImages: its own contract states only the length bound. The
  all-or-nothing, count and order properties are the separate lemmas
  `UploadImagesAllOrNothing`, `UploadImagesCount` and `UploadImagesInOrder`.

=== FILE: auth.dfy ===
/** The server's account routes: the username and password validators and
    the order in which signup and login apply their checks. Password
    hashing and comparison are parameters, and the users table is the
    sequence of rows the database returns, in its order. */
module Auth {
  import opened Chars
  import opened Results

  const UsernameLengthMessage := "Username must be between 2 and 32 characters"
  const UsernameCharsMessage := "Username can only contain lowercase letters, numbers, periods, and underscores"
  const UsernameEdgeMessage := "Username cannot start or end with a period or underscore"

  const PasswordLengthMessage := "Password must be at least 8 characters long"
  const PasswordLowerMessage := "Password must contain at least one lowercase letter"
  const PasswordUpperMessage := "Password must contain at least one uppercase letter"
  const PasswordDigitMessage := "Password must contain at least one number"
  const PasswordSymbolMessage := "Password must contain at least one special character"
  const PasswordSpaceMessage := "Password should not contain spaces"

  const InvalidEmailMessage := "Invalid email format"
  const EmailTakenMessage := "Email already registered"
  const UsernameTakenMessage := "Username already taken"
  const BadCredentialsMessage := "Invalid email or password"

  // The username rules, each stated on its own.

  predicate UsernameLengthOk(u: string) {
    2 <= |u| <= 32
  }

  predicate UsernameCharsOk(u: string) {
    |u| > 0 && forall i :: 0 <= i < |u| ==> IsUsernameChar(u[i])
  }

  /** No separator at either end and no separator doubled. The two
      separators next to each other in either order (`._`) are allowed. */
  predicate UsernameEdgesOk(u: string) {
    && (|u| > 0 ==> !IsSeparator(u[0]) && !IsSeparator(u[|u| - 1]))
    && forall i :: 0 <= i < |u| - 1 ==> !(IsSeparator(u[i]) && u[i + 1] == u[i])
  }

  /** `/^[._]|[._]$|[.]{2}|[_]{2}/.test(u)` */
  predicate BadSeparators(u: string) {
    || (|u| > 0 && IsSeparator(u[0]))
    || (|u| > 0 && IsSeparator(u[|u| - 1]))
    || HasPair(u, '.')
    || HasPair(u, '_')
  }

  /** The server's username check: the message of the first rule that fails,
      or none. */
  function ValidateUsername(u: string): (r: Option<string>)
    ensures r == None <==> UsernameLengthOk(u) && UsernameCharsOk(u) && UsernameEdgesOk(u)
    ensures !UsernameLengthOk(u) ==> r == Some(UsernameLengthMessage)
    ensures UsernameLengthOk(u) && !UsernameCharsOk(u) ==> r == Some(UsernameCharsMessage)
    ensures UsernameLengthOk(u) && UsernameCharsOk(u) && !UsernameEdgesOk(u) ==>
              r == Some(UsernameEdgeMessage)
  {
    if |u| < 2 || |u| > 32 then Some(UsernameLengthMessage)
    else if !AllOf(u, IsUsernameChar) then Some(UsernameCharsMessage)
    else if BadSeparators(u) then Some(UsernameEdgeMessage)
    else None
  }

  // The password rules, each stated on its own.

  /** Every rule of the server's password check holds. */
  predicate PasswordRulesHold(p: string) {
    && |p| >= 8
    && HasChar(p, IsLower)
    && HasChar(p, IsUpper)
    && HasChar(p, IsDigit)
    && HasChar(p, IsPasswordSymbol)
    && !HasChar(p, IsSpace)
  }

  /** The server's password check: the message of the first rule that fails,
      in the order length, lowercase, uppercase, digit, symbol, no space. */
  function ValidatePassword(p: string): (r: Option<string>)
    ensures r == None <==> PasswordRulesHold(p)
    ensures |p| < 8 ==> r == Some(PasswordLengthMessage)
    ensures |p| >= 8 && !HasChar(p, IsLower) ==> r == Some(PasswordLowerMessage)
    ensures |p| >= 8 && HasChar(p, IsLower) && !HasChar(p, IsUpper) ==>
              r == Some(PasswordUpperMessage)
    ensures |p| >= 8 && HasChar(p, IsLower) && HasChar(p, IsUpper) && !HasChar(p, IsDigit) ==>
              r == Some(PasswordDigitMessage)
    ensures (|p| >= 8 && HasChar(p, IsLower) && HasChar(p, IsUpper) && HasChar(p, IsDigit)
             && !HasChar(p, IsPasswordSymbol)) ==> r == Some(PasswordSymbolMessage)
    ensures (|p| >= 8 && HasChar(p, IsLower) && HasChar(p, IsUpper) && HasChar(p, IsDigit)
             && HasChar(p, IsPasswordSymbol) && HasChar(p, IsSpace)) ==> r == Some(PasswordSpaceMessage)
  {
    if |p| < 8 then Some(PasswordLengthMessage)
    else if !Exists(p, IsLower) then Some(PasswordLowerMessage)
    else if !Exists(p, IsUpper) then Some(PasswordUpperMessage)
    else if !Exists(p, IsDigit) then Some(PasswordDigitMessage)
    else if !Exists(p, IsPasswordSymbol) then Some(PasswordSymbolMessage)
    else if Exists(p, IsSpace) then Some(PasswordSpaceMessage)
    else None
  }

  /** A row of the users table; `passwordHash` is what the hashing call
      produced at signup. */
  datatype User = User(id: int, username: string, email: string, passwordHash: string)

  /** `SELECT * FROM users WHERE email = $1 OR username = $2`, first row. */
  function FirstClash(users: seq<User>, username: string, email: string): (r: Option<User>)
    ensures r == None <==>
              forall i :: 0 <= i < |users| ==> users[i].email != email && users[i].username != username
    ensures r.Some? ==> exists i :: 0 <= i < |users| && users[i] == r.value
                          && (forall j :: 0 <= j < i ==> users[j].email != email && users[j].username != username)
    ensures r.Some? ==> r.value.email == email || r.value.username == username
  {
    if users == [] then None
    else if users[0].email == email || users[0].username == username then Some(users[0])
    else
      var rest := FirstClash(users[1..], username, email);
      assert forall i :: 1 <= i < |users| ==> users[i] == users[1..][i - 1];
      if rest.Some? then
        ghost var k :| 0 <= k < |users[1..]| && users[1..][k] == rest.value
          && (forall j :: 0 <= j < k ==> users[1..][j].email != email && users[1..][j].username != username);
        assert users[k + 1] == rest.value;
        rest
      else rest
  }

  /** `SELECT * FROM users WHERE email = $1`, first row. */
  function FirstWithEmail(users: seq<User>, email: string): (r: Option<User>)
    ensures r == None <==> forall i :: 0 <= i < |users| ==> users[i].email != email
    ensures r.Some? ==> r.value in users && r.value.email == email
  {
    if users == [] then None
    else if users[0].email == email then Some(users[0])
    else
      var rest := FirstWithEmail(users[1..], email);
      assert forall i :: 1 <= i < |users| ==> users[i] == users[1..][i - 1];
      rest
  }

  /** No two rows share an email or a username. */
  predicate UniqueAccounts(users: seq<User>) {
    forall i, j :: 0 <= i < j < |users| ==>
      users[i].email != users[j].email && users[i].username != users[j].username
  }

  /** The signup route. `hash` is the password hash the hashing call returns
      and `newId` the id the database assigns. On success the reply carries
      the new table and the created user; on an error nothing is inserted. */
  function Signup(users: seq<User>, username: string, email: string, password: string,
                  hash: string, newId: int): (r: Reply<(seq<User>, User)>)
    ensures ValidateUsername(username).Some? ==> r == Err(400, ValidateUsername(username).value)
    ensures ValidateUsername(username).None? && ValidatePassword(password).Some? ==>
              r == Err(400, ValidatePassword(password).value)
    ensures ValidateUsername(username).None? && ValidatePassword(password).None? && !EmailLike(email) ==>
              r == Err(400, InvalidEmailMessage)
    ensures r.Ok? <==>
              && ValidateUsername(username).None? && ValidatePassword(password).None? && EmailLike(email)
              && forall i :: 0 <= i < |users| ==> users[i].email != email && users[i].username != username
    ensures r.Ok? ==> r.status == 201 && r.value.1 == User(newId, username, email, hash)
                      && r.value.0 == users + [r.value.1]
    ensures r.Err? ==> r.status == 400
  {
    var usernameError := ValidateUsername(username);
    if usernameError.Some? then Err(400, usernameError.value)
    else
      var passwordError := ValidatePassword(password);
      if passwordError.Some? then Err(400, passwordError.value)
      else if !EmailLike(email) then Err(400, InvalidEmailMessage)
      else
        match FirstClash(users, username, email)
        case Some(existing) =>
          if existing.email == email then Err(400, EmailTakenMessage)
          else Err(400, UsernameTakenMessage)
        case None =>
          var user := User(newId, username, email, hash);
          Ok(201, (users + [user], user))
  }

  /** Which duplicate is reported depends on the first clashing row only:
      if it has the same email, "Email already registered" wins even when
      the username is taken too. */
  lemma SignupReportsFirstClash(users: seq<User>, username: string, email: string, password: string,
                                hash: string, newId: int)
    requires FirstClash(users, username, email).Some?
    ensures var passes := ValidateUsername(username).None? && ValidatePassword(password).None? && EmailLike(email);
            && (passes && FirstClash(users, username, email).value.email == email ==>
                  Signup(users, username, email, password, hash, newId) == Err(400, EmailTakenMessage))
            && (passes && FirstClash(users, username, email).value.email != email ==>
                  Signup(users, username, email, password, hash, newId) == Err(400, UsernameTakenMessage))
  {
  }

  /** Signup keeps emails and usernames unique. */
  lemma SignupKeepsAccountsUnique(users: seq<User>, username: string, email: string,
                                   password: string, hash: string, newId: int)
    requires UniqueAccounts(users)
    requires Signup(users, username, email, password, hash, newId).Ok?
    ensures UniqueAccounts(Signup(users, username, email, password, hash, newId).value.0)
  {
    var users' := Signup(users, username, email, password, hash, newId).value.0;
    forall i, j | 0 <= i < j < |users'|
      ensures users'[i].email != users'[j].email && users'[i].username != users'[j].username
    {
      if j == |users| {
        assert users'[i] == users[i];
      }
    }
  }

  /** The login route. `verify(password, hash)` stands for the hash
      comparison. */
  function Login(users: seq<User>, email: string, password: string,
                 verify: (string, string) -> bool): (r: Reply<User>)
    ensures !EmailLike(email) ==> r == Err(400, InvalidEmailMessage)
    ensures r.Ok? <==> EmailLike(email) && FirstWithEmail(users, email).Some?
                       && verify(password, FirstWithEmail(users, email).value.passwordHash)
    ensures r.Ok? ==> r.status == 200 && r.value in users && r.value.email == email
                      && verify(password, r.value.passwordHash)
    ensures EmailLike(email) && r.Err? ==> r == Err(401, BadCredentialsMessage)
  {
    if !EmailLike(email) then Err(400, InvalidEmailMessage)
    else
      match FirstWithEmail(users, email)
      case None => Err(401, BadCredentialsMessage)
      case Some(user) =>
        if !verify(password, user.passwordHash) then Err(401, BadCredentialsMessage)
        else Ok(200, user)
  }

  /** Login does not tell an unknown email from a wrong password: both give
      the same reply. */
  lemma LoginHidesWhichCheckFailed(users: seq<User>, known: string, unknown: string, password: string,
                                   verify: (string, string) -> bool)
    requires EmailLike(known) && EmailLike(unknown)
    requires forall i :: 0 <= i < |users| ==> users[i].email != unknown
    requires FirstWithEmail(users, known).Some?
    requires !verify(password, FirstWithEmail(users, known).value.passwordHash)
    ensures Login(users, unknown, password, verify) == Login(users, known, password, verify)
    ensures Login(users, known, password, verify) == Err(401, BadCredentialsMessage)
  {
  }
}

=== FILE: chars.dfy ===
/** The character classes and string searches behind the regular
    expressions of the account forms. A regular expression that is not
    anchored matches if it matches at some position, so each search is
    stated as an existential over positions. */
module Chars {

  /** `[a-z]` */
  predicate IsLower(c: char) {
    'a' <= c && c <= 'z'
  }

  /** `[A-Z]` */
  predicate IsUpper(c: char) {
    'A' <= c && c <= 'Z'
  }

  /** `[0-9]` and `\d` */
  predicate IsDigit(c: char) {
    '0' <= c && c <= '9'
  }

  /** `[A-Za-z0-9]` */
  predicate IsAlnum(c: char) {
    IsLower(c) || IsUpper(c) || IsDigit(c)
  }

  /** `[@$!%*?&]`, the symbols the server's password rule asks for. */
  predicate IsPasswordSymbol(c: char) {
    c == '@' || c == '$' || c == '!' || c == '%' || c == '*' || c == '?' || c == '&'
  }

  /** `[._]` */
  predicate IsSeparator(c: char) {
    c == '.' || c == '_'
  }

  /** `[a-z0-9._]` */
  predicate IsUsernameChar(c: char) {
    IsLower(c) || IsDigit(c) || IsSeparator(c)
  }

  /** `\s` of JavaScript regular expressions: the ASCII blanks, the Unicode
      space separators, the line and paragraph separators and the byte order
      mark. */
  predicate IsSpace(c: char) {
    || c == ' ' || c == '\t' || c == '\n' || c == '\r'
    || c == '\U{000B}' || c == '\U{000C}' || c == '\U{00A0}' || c == '\U{1680}'
    || ('\U{2000}' <= c && c <= '\U{200A}')
    || c == '\U{2028}' || c == '\U{2029}' || c == '\U{202F}' || c == '\U{205F}'
    || c == '\U{3000}' || c == '\U{FEFF}'
  }

  /** Some character of `s` is in the class `kind`. */
  predicate HasChar(s: string, kind: char -> bool) {
    exists i :: 0 <= i < |s| && kind(s[i])
  }

  /** A search for one character of class `p`, scanning left to right. */
  function Exists(s: string, p: char -> bool): (r: bool)
    ensures r <==> exists i :: 0 <= i < |s| && p(s[i])
  {
    if s == [] then false
    else if p(s[0]) then true
    else
      var rest := Exists(s[1..], p);
      assert forall i :: 1 <= i < |s| ==> s[i] == s[1..][i - 1];
      rest
  }

  /** `^[class]+$`: the string is non-empty and every character is in the class. */
  function AllOf(s: string, p: char -> bool): (r: bool)
    ensures r <==> |s| > 0 && forall i :: 0 <= i < |s| ==> p(s[i])
  {
    |s| > 0 && !Exists(s, c => !p(c))
  }

  /** A search for the same character `c` twice in a row (`[.]{2}`, `[_]{2}`). */
  function HasPair(s: string, c: char): (r: bool)
    ensures r <==> exists i :: 0 <= i < |s| - 1 && s[i] == c && s[i + 1] == c
  {
    if |s| < 2 then false
    else if s[0] == c && s[1] == c then true
    else
      var rest := HasPair(s[1..], c);
      assert forall i :: 1 <= i < |s| ==> s[i] == s[1..][i - 1];
      rest
  }

  /** Every character of `s[lo..hi]` is matched by `\S`. */
  predicate NonSpaceBetween(s: string, lo: int, hi: int)
    requires 0 <= lo <= hi <= |s|
  {
    forall k :: lo <= k < hi ==> !IsSpace(s[k])
  }

  /** `\S+@\S+\.\S+` found somewhere in `s`: an `@` with a non-space
      character before it, then a run of at least one non-space character,
      then a `.` followed by a non-space character. */
  predicate EmailLike(s: string)
    ensures EmailLike(s) ==> 5 <= |s|
  {
    exists at, dot :: 1 <= at < |s| && 0 <= dot < |s| && EmailMatchAt(s, at, dot)
  }

  /** The email pattern matched with its `@` at `at` and its `.` at `dot`. */
  predicate EmailMatchAt(s: string, at: int, dot: int) {
    && 1 <= at && at + 1 < dot && dot + 1 < |s|
    && s[at] == '@' && s[dot] == '.'
    && !IsSpace(s[at - 1]) && !IsSpace(s[dot + 1])
    && NonSpaceBetween(s, at + 1, dot)
  }

  /** A match of the email pattern with its `@` at `at` and its `.` at `dot`. */
  lemma EmailAt(s: string, at: int, dot: int)
    requires 1 <= at && at + 1 < dot && dot + 1 < |s|
    requires s[at] == '@' && s[dot] == '.'
    requires !IsSpace(s[at - 1]) && !IsSpace(s[dot + 1]) && NonSpaceBetween(s, at + 1, dot)
    ensures EmailLike(s)
  {
    assert EmailMatchAt(s, at, dot);
  }

  /** The pattern is not anchored: text around an address does not matter. */
  lemma EmailExample()
    ensures EmailLike("<a@b.c>")
  {
    EmailAt("<a@b.c>", 2, 4);
  }

  /** Text around a match keeps it a match. */
  lemma EmailLikeInContext(before: string, s: string, after: string)
    requires EmailLike(s)
    ensures EmailLike(before + s + after)
  {
    var at, dot :| 1 <= at < |s| && 0 <= dot < |s| && EmailMatchAt(s, at, dot);
    var t := before + s + after;
    var n := |before|;
    ShiftedChars(before, s, after);
    forall k | n + at + 1 <= k < n + dot
      ensures !IsSpace(t[k])
    {
      assert t[k] == s[k - n];
    }
    assert EmailMatchAt(t, n + at, n + dot);
    assert 1 <= n + at < |t| && 0 <= n + dot < |t|;
  }

  lemma ShiftedChars(before: string, s: string, after: string)
    ensures forall k :: |before| <= k < |before| + |s| ==> (before + s + after)[k] == s[k - |before|]
  {
  }

  /** Three strings the pattern refuses: no dot after the `@`, a dot right
      after the `@`, and a space right before the `@`. */
  lemma EmailCounterExamples()
    ensures !EmailLike("a@b")
    ensures !EmailLike("a@.c")
    ensures !EmailLike("a @b.c")
  {
  }
}

=== FILE: home_page.dfy ===
/** The home page's story list: the spots the list route returns, each read
    into a story with fallbacks for a missing name or description, and the
    first three shown as cards. */
module HomePage {
  import opened Js
  import opened Results
  import SpotTable
  import SpotsApi

  const UnnamedTitle := "Unnamed Event"
  const NoDescriptionText := "No description available."

  /** A story as the page keeps it in its state. */
  datatype Story = Story(id: JsValue, name: JsValue, description: JsValue, images: seq<JsValue>)

  /** The property read `v.k` on a value of the JSON response: objects have
      their fields, other non-null values have none of the properties read
      here, and reading from `null` throws. */
  function Field(v: JsValue, k: string): (r: Option<JsValue>)
    ensures r.None? <==> v.Null? || v.Undefined?
    ensures v.Obj? ==> r == Some(Prop(v.fields, k))
    ensures !v.Obj? && r.Some? ==> r.value.Undefined?
  {
    match v
    case Null => None
    case Undefined => None
    case Obj(fields) => Some(Prop(fields, k))
    case _ => Some(Undefined)
  }

  /** One element of the response read into a story; `None` when the
      element is `null`, where the property read throws. */
  function ToStory(v: JsValue): (r: Option<Story>)
    ensures r.None? <==> v.Null? || v.Undefined?
    ensures r.Some? ==>
              var s := r.value;
              && s.id == Field(v, "id").value
              && (Truthy(Field(v, "name").value) ==> s.name == Field(v, "name").value)
              && (Falsy(Field(v, "name").value) ==> s.name == Str(UnnamedTitle))
              && (Truthy(Field(v, "description").value) ==> s.description == Field(v, "description").value)
              && (Falsy(Field(v, "description").value) ==> s.description == Str(NoDescriptionText))
              && (Field(v, "images").value.Arr? ==> s.images == Field(v, "images").value.items)
              && (!Field(v, "images").value.Arr? ==> s.images == [])
  {
    if v.Null? || v.Undefined? then None
    else
      var images := Field(v, "images").value;
      Some(Story(Field(v, "id").value,
                 Or(Field(v, "name").value, Str(UnnamedTitle)),
                 Or(Field(v, "description").value, Str(NoDescriptionText)),
                 if images.Arr? then images.items else []))
  }

  /** `data.map(toStory)`: a story per element in order, or a failure when
      any element throws. */
  function ToStories(items: seq<JsValue>): (r: Option<seq<Story>>)
    ensures r.Some? <==> forall i :: 0 <= i < |items| ==> !items[i].Null? && !items[i].Undefined?
    ensures r.Some? ==> |r.value| == |items|
                        && forall i :: 0 <= i < |items| ==> Some(r.value[i]) == ToStory(items[i])
  {
    if items == [] then Some([])
    else
      var rest := ToStories(items[1..]);
      assert forall i :: 1 <= i < |items| ==> items[i] == items[1..][i - 1];
      match ToStory(items[0])
      case None => None
      case Some(s) => if rest.None? then None else Some([s] + rest.value)
  }

  /** The fetch handler: the stories replace the page's list when the
      response is an array whose elements all read; otherwise the error is
      caught and the previous list stays. */
  function LoadStories(previous: seq<Story>, data: JsValue): (r: seq<Story>)
    ensures data.Arr? && ToStories(data.items).Some? ==> r == ToStories(data.items).value
    ensures !data.Arr? || ToStories(data.items).None? ==> r == previous
  {
    if data.Arr? && ToStories(data.items).Some? then ToStories(data.items).value else previous
  }

  /** A story card: title, text, and the image shown when there is one. */
  datatype Card = Card(title: JsValue, text: JsValue, image: Option<JsValue>)

  /** What the stories section renders: the cards and whether the "no
      stories" line is shown. */
  datatype HomeView = HomeView(cards: seq<Card>, showEmpty: bool)

  function StoryCard(s: Story): (c: Card)
    ensures c.title == s.name && c.text == s.description
    ensures c.image.Some? <==> |s.images| > 0
    ensures c.image.Some? ==> c.image.value == s.images[0]
  {
    Card(s.name, s.description, if |s.images| > 0 then Some(s.images[0]) else None)
  }

  function Cards(stories: seq<Story>): (r: seq<Card>)
    ensures |r| == |stories|
    ensures forall i :: 0 <= i < |stories| ==> r[i] == StoryCard(stories[i])
  {
    if stories == [] then [] else [StoryCard(stories[0])] + Cards(stories[1..])
  }

  /** `stories.slice(0, 3).map(card)` and `stories.length === 0`. */
  function RenderHome(stories: seq<Story>): (v: HomeView)
    ensures |v.cards| == if |stories| < 3 then |stories| else 3
    ensures forall i :: 0 <= i < |v.cards| ==> v.cards[i] == StoryCard(stories[i])
    ensures v.showEmpty <==> stories == []
  {
    var shown := if |stories| < 3 then stories else stories[..3];
    HomeView(Cards(shown), |stories| == 0)
  }

  /** Cards are shown or the empty line is, never both and never neither. */
  lemma CardsOrEmptyLine(stories: seq<Story>)
    ensures RenderHome(stories).showEmpty <==> RenderHome(stories).cards == []
  {
  }

  /** Stories past the third never reach the page. */
  lemma OnlyFirstThreeShown(stories: seq<Story>, extra: seq<Story>)
    requires |stories| >= 3
    ensures RenderHome(stories + extra) == RenderHome(stories)
  {
    assert (stories + extra)[..3] == stories[..3];
  }

  /** A listed spot as the list route's JSON sends it: the stored columns
      under their names plus the normalised `images`. */
  function ListedSpotJson(v: SpotsApi.SpotView): (r: JsValue)
    ensures r.Obj?
    ensures Prop(r.fields, "images") == Arr(v.images)
    ensures Prop(r.fields, "id") == Num(v.row.id as real)
    ensures Prop(r.fields, "name") == v.row.name && Prop(r.fields, "description") == v.row.description
  {
    var row := v.row;
    Obj(map[
      "id" := Num(row.id as real),
      "username" := row.username,
      "lat" := row.lat,
      "lng" := row.lng,
      "name" := row.name,
      "description" := row.description,
      "image_url" := row.imageUrl,
      "comments" := v.comments,
      "stars" := row.stars,
      "images" := Arr(v.images)])
  }

  function ListJson(views: seq<SpotsApi.SpotView>): (r: seq<JsValue>)
    ensures |r| == |views|
    ensures forall i :: 0 <= i < |views| ==> r[i] == ListedSpotJson(views[i])
  {
    if views == [] then [] else [ListedSpotJson(views[0])] + ListJson(views[1..])
  }

  /** The page's reading of a list response: one story per listed spot, in
      order, with the spot's id and image list and the fallbacks for a
      falsy name or description. */
  lemma StoriesFollowTheViews(previous: seq<Story>, views: seq<SpotsApi.SpotView>)
    ensures var stories := LoadStories(previous, Arr(ListJson(views)));
            && |stories| == |views|
            && forall i :: 0 <= i < |views| ==>
                 && stories[i].id == Num(views[i].row.id as real)
                 && stories[i].images == views[i].images
                 && stories[i].name == Or(views[i].row.name, Str(UnnamedTitle))
                 && stories[i].description == Or(views[i].row.description, Str(NoDescriptionText))
  {
    var items := ListJson(views);
    assert ToStories(items).Some?;
  }

  /** From the store to the page: whatever the rows, the home page gets one
      story per stored row, in the order the database lists them, each with
      the row's id and the same image list the list route normalised, and
      with the fallbacks for a falsy name or description. */
  lemma StoriesFollowTheRows(previous: seq<Story>, t: SpotTable.Table, order: seq<int>)
    requires SpotTable.IsOrdering(t, order)
    ensures var rows := SpotTable.SelectAll(t, order);
            var stories := LoadStories(previous, Arr(ListJson(SpotsApi.ListSpots(t, order))));
            && |stories| == |rows|
            && forall i :: 0 <= i < |rows| ==>
                 && stories[i].id == Num(rows[i].id as real)
                 && stories[i].images == SpotsApi.NormaliseImages(rows[i].imageUrl)
                 && stories[i].name == Or(rows[i].name, Str(UnnamedTitle))
                 && stories[i].description == Or(rows[i].description, Str(NoDescriptionText))
  {
    var views := SpotsApi.ListSpots(t, order);
    StoriesFollowTheViews(previous, views);
    SpotsApi.ListSpotsShowsSelectAll(t, order);
  }
}

=== FILE: js.dfy ===
/** JavaScript values as the routes and pages see them, and the few
    language rules the model leans on: truthiness, destructuring defaults,
    property reads and `Number.isInteger`. */
module Js {

  /** A JavaScript value after JSON body parsing or a database read.
      `Undefined` stands for a property that is absent. Numbers are reals;
      `NaN` is kept apart because it is falsy and compares false. */
  datatype JsValue =
    | Undefined
    | Null
    | Bool(b: bool)
    | Num(x: real)
    | NaN
    | Str(s: string)
    | Arr(items: seq<JsValue>)
    | Obj(fields: map<string, JsValue>)

  /** The values `!v` is true of: undefined, null, false, 0, NaN and "". */
  predicate Falsy(v: JsValue) {
    match v
    case Undefined => true
    case Null => true
    case Bool(b) => !b
    case Num(x) => x == 0.0
    case NaN => true
    case Str(s) => s == ""
    case Arr(_) => false
    case Obj(_) => false
  }

  predicate Truthy(v: JsValue) {
    !Falsy(v)
  }

  /** `Number.isInteger(v)`: only a number with no fractional part. */
  predicate IsInteger(v: JsValue) {
    v.Num? && v.x.Floor as real == v.x
  }

  /** `const { k = d } = body`: the default replaces only an absent value
      (not null, not any other falsy value). */
  function Default(v: JsValue, d: JsValue): JsValue {
    if v.Undefined? then d else v
  }

  /** `v || d`: the default replaces every falsy value. */
  function Or(v: JsValue, d: JsValue): JsValue {
    if Truthy(v) then v else d
  }

  /** The property read `o.k` on a plain object. */
  function Prop(o: map<string, JsValue>, k: string): JsValue {
    if k in o then o[k] else Undefined
  }

  /** What the database driver stores for a query parameter: an undefined
      parameter becomes NULL. */
  function ToSql(v: JsValue): JsValue {
    if v.Undefined? then Null else v
  }

  /** A value placed inside an array that goes through `JSON.stringify`:
      undefined is written as null there. */
  function InJsonArray(v: JsValue): JsValue {
    if v.Undefined? then Null else v
  }

  /** A plain JavaScript string as a value. */
  function Strs(ss: seq<string>): (r: seq<JsValue>)
    ensures |r| == |ss|
    ensures forall i :: 0 <= i < |ss| ==> r[i] == Str(ss[i])
  {
    if ss == [] then [] else [Str(ss[0])] + Strs(ss[1..])
  }
}

/** Replies and optional values shared by the routes. */
module Results {

  datatype Option<+T> = None | Some(value: T)

  /** An HTTP reply: a success status with its body, or an error status
      with the human-readable message the route sends. */
  datatype Reply<+T> =
    | Ok(status: nat, value: T)
    | Err(status: nat, message: string)
}

=== FILE: legacy_spots.dfy ===
/** The older spot routes: listing the stored rows as they are, a create
    that needs only the coordinates and sends the image column as it came,
    and the star update. Their comment append is `SpotTable.AppendComment`. */
module LegacySpots {
  import opened Js
  import opened Results
  import opened SpotTable
  import SpotsApi

  const CoordinatesRequiredMessage := "Latitude and longitude are required"
  const StarsNotIntegerMessage := "Stars must be an integer"

  /** The stored rows inside a list of spot views. */
  function Rows(views: seq<SpotsApi.SpotView>): (r: seq<Spot>)
    ensures |r| == |views|
    ensures forall i :: 0 <= i < |views| ==> r[i] == views[i].row
  {
    if views == [] then [] else [views[0].row] + Rows(views[1..])
  }

  /** `GET /spots` of the older routes sends `SpotTable.SelectAll` as it
      is; the current list route sends the same rows in the same order and
      only adds the normalised image list to each. */
  lemma ApiListExtendsLegacyList(t: Table, order: seq<int>)
    requires IsOrdering(t, order)
    ensures Rows(SpotsApi.ListSpots(t, order)) == SelectAll(t, order)
  {
  }

  /** A request value passed as is for a jsonb column: the driver sends
      null and undefined as SQL NULL, a string as its own text, a number or
      boolean as its JSON text, an object as `JSON.stringify` of it, and an
      array as a PostgreSQL array literal (`{}` for an empty one, which
      reads as an empty JSON object; a non-empty one is not JSON). The
      column then takes the text as JSON, so text that is not JSON (a bare
      URL, say) fails the statement. `parse` stands for reading JSON text. */
  function JsonbParameter(v: JsValue, parse: string -> Option<JsValue>): (r: Option<JsValue>)
    ensures v.Undefined? || v.Null? ==> r == Some(Null)
    ensures v.Str? ==> r == parse(v.s)
    ensures v.Num? || v.Bool? || v.Obj? ==> r == Some(v)
    ensures v.Arr? ==> (r.Some? <==> v.items == [])
    ensures v.Arr? && r.Some? ==> r.value == Obj(map[])
    ensures v.NaN? ==> r == None
  {
    match v
    case Undefined => Some(Null)
    case Null => Some(Null)
    case Str(s) => parse(s)
    case Arr(items) => if items == [] then Some(Obj(map[])) else None
    case NaN => None
    case _ => Some(v)
  }

  /** `POST /spots` of the older routes. A falsy `lat` or `lng` is refused;
      `name` is not asked for and, like `description`, is not inserted, so
      both columns are NULL. `image_url` goes to its jsonb column as sent,
      and a value that column cannot take fails the insert. */
  function LegacyCreate(t: Table, body: map<string, JsValue>, parse: string -> Option<JsValue>): (r: Step<Spot>)
    requires Valid(t)
    ensures Valid(r.table)
    ensures r.reply.Ok? <==> && Truthy(Prop(body, "lat")) && Truthy(Prop(body, "lng"))
                             && JsonbParameter(Prop(body, "image_url"), parse).Some?
    ensures Falsy(Prop(body, "lat")) || Falsy(Prop(body, "lng")) ==> r == Step(t, Err(400, CoordinatesRequiredMessage))
    ensures r.reply.Err? ==> r.table == t
    ensures Truthy(Prop(body, "lat")) && Truthy(Prop(body, "lng")) && r.reply.Err? ==>
              r.reply == Err(500, SpotsApi.ServerErrorMessage)
    ensures r.reply.Ok? ==>
              var s := r.reply.value;
              && r.reply.status == 201 && s.id == t.nextId && t.nextId !in t.rows
              && r.table.rows == t.rows[s.id := s]
              && s.lat == Prop(body, "lat") && s.lng == Prop(body, "lng")
              && s.name == Null && s.description == Null
              && s.imageUrl == JsonbParameter(Prop(body, "image_url"), parse).value
              && s.username == (if Prop(body, "username").Undefined? then Str("Anonymous") else Prop(body, "username"))
              && s.stars == (if Prop(body, "stars").Undefined? then Num(0.0) else Prop(body, "stars"))
              && s.comments == (if Prop(body, "comments").Undefined? then Arr([]) else Prop(body, "comments"))
  {
    var lat := Prop(body, "lat");
    var lng := Prop(body, "lng");
    if Falsy(lat) || Falsy(lng) then Step(t, Err(400, CoordinatesRequiredMessage))
    else
      match JsonbParameter(Prop(body, "image_url"), parse)
      case None => Step(t, Err(500, SpotsApi.ServerErrorMessage))
      case Some(image) =>
        var row := Spot(0,
                        Default(Prop(body, "username"), Str("Anonymous")),
                        lat, lng, Null, Null,
                        image,
                        Default(Prop(body, "comments"), Arr([])),
                        Default(Prop(body, "stars"), Num(0.0)));
        var (t', s) := Insert(t, row);
        Step(t', Ok(201, s))
  }

  /** The two create routes disagree on `name`: a body with coordinates but
      no name is refused by the current route before any upload, while the
      older route stores it whenever its image column takes `image_url`. */
  lemma CreateRoutesDisagreeOnName(t: Table, body: map<string, JsValue>, upload: SpotsApi.Uploader,
                                   parse: string -> Option<JsValue>)
    requires Valid(t)
    requires Truthy(Prop(body, "lat")) && Truthy(Prop(body, "lng")) && "name" !in body
    ensures LegacyCreate(t, body, parse).reply.Ok? <==> JsonbParameter(Prop(body, "image_url"), parse).Some?
    ensures SpotsApi.CreateSpot(t, body, upload) == Step(t, Err(400, SpotsApi.RequiredMessage))
  {
  }

  /** A string `image_url` reaches the older route's jsonb column as JSON
      text: a bare URL, which is not JSON, fails the create with nothing
      stored, and the text of a JSON string stores that string, which the
      current single-spot route reads back as a one-element list. */
  lemma LegacyImageIsJsonText(t: Table, body: map<string, JsValue>, text: string, url: string,
                              parse: string -> Option<JsValue>)
    requires Valid(t)
    requires Truthy(Prop(body, "lat")) && Truthy(Prop(body, "lng"))
    requires Prop(body, "image_url") == Str(text)
    requires "comments" !in body
    ensures parse(text).None? ==> LegacyCreate(t, body, parse) == Step(t, Err(500, SpotsApi.ServerErrorMessage))
    ensures parse(text) == Some(Str(url)) ==>
              var step := LegacyCreate(t, body, parse);
              var s := step.reply.value;
              && step.reply.Ok? && s.imageUrl == Str(url)
              && SpotsApi.GetSpot(step.table, s.id, parse) == Ok(200, SpotsApi.SpotView(s, [Str(url)], Arr([])))
  {
  }

  /** `PUT /spots/:id/stars`: anything but an integer is refused and nothing
      changes; any integer (the column's range is left out) overwrites the
      stars of the row with that id and nothing else. With no such row the
      reply is 200 and carries no spot. */
  function UpdateStars(t: Table, id: int, stars: JsValue): (r: Step<Option<Spot>>)
    ensures !IsInteger(stars) ==> r == Step(t, Err(400, StarsNotIntegerMessage))
    ensures IsInteger(stars) ==> r.reply.Ok? && r.reply.status == 200
    ensures IsInteger(stars) && id !in t.rows ==> r == Step(t, Ok(200, None))
    ensures r.table.rows.Keys == t.rows.Keys && r.table.nextId == t.nextId
    ensures forall k :: k in t.rows && k != id ==> r.table.rows[k] == t.rows[k]
    ensures IsInteger(stars) && id in t.rows ==>
              && r.table.rows[id] == t.rows[id].(stars := stars)
              && r.reply.value == Some(r.table.rows[id])
  {
    if !IsInteger(stars) then Step(t, Err(400, StarsNotIntegerMessage))
    else if id in t.rows then
      var row := t.rows[id].(stars := stars);
      Step(Table(t.rows[id := row], t.nextId), Ok(200, Some(row)))
    else Step(t, Ok(200, None))
  }

  lemma UpdateStarsKeepsValid(t: Table, id: int, stars: JsValue)
    requires Valid(t)
    ensures Valid(UpdateStars(t, id, stars).table)
  {
  }

  /** A refused update changes nothing whatever came before, and of two
      accepted updates of the same row the later one wins. */
  lemma UpdateStarsLastWins(t: Table, id: int, a: JsValue, b: JsValue)
    requires IsInteger(b)
    ensures UpdateStars(UpdateStars(t, id, a).table, id, b).table == UpdateStars(t, id, b).table
  {
    var t1 := UpdateStars(t, id, a).table;
    if id in t.rows {
      assert UpdateStars(t1, id, b).table.rows == UpdateStars(t, id, b).table.rows;
    }
  }

  /** Rating a spot and commenting on it touch different columns, so their
      order does not matter. */
  lemma StarsAndCommentsCommute(t: Table, id: int, stars: JsValue, comment: JsValue)
    ensures UpdateStars(AppendComment(t, id, comment).table, id, stars).table
            == AppendComment(UpdateStars(t, id, stars).table, id, comment).table
  {
    var left := UpdateStars(AppendComment(t, id, comment).table, id, stars).table;
    var right := AppendComment(UpdateStars(t, id, stars).table, id, comment).table;
    if id in t.rows && IsInteger(stars) {
      assert left.rows[id] == right.rows[id];
      assert left.rows == right.rows;
    }
  }
}

=== FILE: proximity.dfy ===
/** The sidebar's "nearby events" selection: keep, in order, the markers
    whose distance from the current location is at most the chosen radius.
    The distance is a parameter standing for the haversine formula, so the
    selection is stated for any distance function. */
module Proximity {
  import opened Results

  /** The sidebar's starting radius, in miles. */
  const InitialRadius: real := 10.0

  /** `markers.filter(m => dist(here, m) <= radius)` */
  function Nearby<L, M>(here: L, markers: seq<M>, radius: real, dist: (L, M) -> real): (r: seq<M>)
    ensures |r| <= |markers|
    ensures forall m :: m in r ==> m in markers && dist(here, m) <= radius
    ensures forall i :: 0 <= i < |markers| && dist(here, markers[i]) <= radius ==> markers[i] in r
  {
    if markers == [] then []
    else
      var rest := Nearby(here, markers[1..], radius, dist);
      assert forall i :: 1 <= i < |markers| ==> markers[i] == markers[1..][i - 1];
      if dist(here, markers[0]) <= radius then [markers[0]] + rest else rest
  }

  /** A marker is kept as many times as it occurs when it is close enough,
      and not at all otherwise. */
  lemma {:induction false} NearbyCounts<L, M>(here: L, markers: seq<M>, radius: real, dist: (L, M) -> real)
    ensures multiset(Nearby(here, markers, radius, dist)) <= multiset(markers)
    ensures forall i :: 0 <= i < |markers| ==>
              multiset(Nearby(here, markers, radius, dist))[markers[i]]
                == if dist(here, markers[i]) <= radius then multiset(markers)[markers[i]] else 0
  {
    forall m: M
      ensures multiset(Nearby(here, markers, radius, dist))[m]
                == if dist(here, m) <= radius then multiset(markers)[m] else 0
    {
      NearbyCountOf(here, markers, radius, dist, m);
    }
  }

  /** The count of one value in the selection. */
  lemma {:induction false} NearbyCountOf<L, M>(here: L, markers: seq<M>, radius: real, dist: (L, M) -> real, m: M)
    ensures multiset(Nearby(here, markers, radius, dist))[m]
              == if dist(here, m) <= radius then multiset(markers)[m] else 0
  {
    if markers != [] {
      var x, tail := markers[0], markers[1..];
      var rest := Nearby(here, tail, radius, dist);
      NearbyCountOf(here, tail, radius, dist, m);
      assert markers == [x] + tail;
      assert multiset(markers) == multiset{x} + multiset(tail);
      if dist(here, x) <= radius {
        assert Nearby(here, markers, radius, dist) == [x] + rest;
        assert multiset([x] + rest) == multiset{x} + multiset(rest);
      } else {
        assert Nearby(here, markers, radius, dist) == rest;
      }
    }
  }

  /** `a` is `b` with some elements left out and the rest in their order. */
  predicate IsSubsequence<T(==)>(a: seq<T>, b: seq<T>)
    decreases |b|
  {
    if b == [] then a == []
    else (a != [] && a[0] == b[0] && IsSubsequence(a[1..], b[1..])) || IsSubsequence(a, b[1..])
  }

  /** The selection keeps the markers' order. */
  lemma {:induction false} NearbyIsSubsequence<L, M>(here: L, markers: seq<M>, radius: real, dist: (L, M) -> real)
    ensures IsSubsequence(Nearby(here, markers, radius, dist), markers)
  {
    if markers != [] {
      NearbyIsSubsequence(here, markers[1..], radius, dist);
    }
  }

  /** Widening the radius only adds markers: what a smaller radius keeps is a
      subsequence of what a larger one keeps. */
  lemma {:induction false} NearbyMonotone<L, M>(here: L, markers: seq<M>, small: real, large: real,
                                                dist: (L, M) -> real)
    requires small <= large
    ensures IsSubsequence(Nearby(here, markers, small, dist), Nearby(here, markers, large, dist))
  {
    if markers != [] {
      var a := Nearby(here, markers, small, dist);
      var b := Nearby(here, markers, large, dist);
      var a' := Nearby(here, markers[1..], small, dist);
      var b' := Nearby(here, markers[1..], large, dist);
      NearbyMonotone(here, markers[1..], small, large, dist);
      if dist(here, markers[0]) <= small {
        assert a == [markers[0]] + a' && b == [markers[0]] + b';
        assert a[1..] == a' && b[1..] == b';
      } else if dist(here, markers[0]) <= large {
        assert b == [markers[0]] + b' && b[1..] == b';
        SubsequenceOfTail(a, b);
      }
    }
  }

  /** Dropping nothing from `a` while `b` gains a head keeps `a` a
      subsequence. */
  lemma SubsequenceOfTail<T>(a: seq<T>, b: seq<T>)
    requires b != [] && IsSubsequence(a, b[1..])
    ensures IsSubsequence(a, b)
  {
  }

  /** The filter as a loop, walking back from the last marker and
      prepending each close one. */
  method NearbyLoop<L, M>(here: L, markers: seq<M>, radius: real, dist: (L, M) -> real) returns (r: seq<M>)
    ensures r == Nearby(here, markers, radius, dist)
  {
    r := [];
    var i := |markers|;
    while i > 0
      invariant 0 <= i <= |markers|
      invariant r == Nearby(here, markers[i..], radius, dist)
    {
      i := i - 1;
      assert markers[i..][1..] == markers[i + 1..];
      if dist(here, markers[i]) <= radius {
        r := [markers[i]] + r;
      }
    }
    assert markers[0..] == markers;
  }

  /** The sidebar's state: the radius the user typed and the last filtered
      list. */
  datatype Sidebar<M> = Sidebar(radius: real, filtered: seq<M>)

  function InitialSidebar<M>(): (s: Sidebar<M>)
    ensures s.radius == 10.0 && s.filtered == []
  {
    Sidebar(InitialRadius, [])
  }

  /** The effect that runs when the location, the markers or the radius
      change: with no location or no markers it leaves the previous list in
      place; otherwise it replaces it by the selection. */
  function RunEffect<L, M>(s: Sidebar<M>, here: Option<L>, markers: seq<M>, dist: (L, M) -> real): (r: Sidebar<M>)
    ensures r.radius == s.radius
    ensures here.None? || markers == [] ==> r.filtered == s.filtered
    ensures here.Some? && markers != [] ==>
              && IsSubsequence(r.filtered, markers)
              && forall i :: 0 <= i < |markers| ==>
                   (markers[i] in r.filtered <==> dist(here.value, markers[i]) <= s.radius)
    ensures here.Some? && markers != [] ==> r.filtered == Nearby(here.value, markers, s.radius, dist)
  {
    if here.None? || markers == [] then s
    else
      NearbyIsSubsequence(here.value, markers, s.radius, dist);
      s.(filtered := Nearby(here.value, markers, s.radius, dist))
  }

  /** After the effect runs with a location and markers, every marker within
      the radius is listed as many times as it occurs, and no other is. */
  lemma RunEffectCounts<L, M>(s: Sidebar<M>, here: L, markers: seq<M>, dist: (L, M) -> real)
    requires markers != []
    ensures var r := RunEffect(s, Some(here), markers, dist);
            && multiset(r.filtered) <= multiset(markers)
            && forall i :: 0 <= i < |markers| ==>
                 multiset(r.filtered)[markers[i]]
                   == if dist(here, markers[i]) <= s.radius then multiset(markers)[markers[i]] else 0
  {
    NearbyCounts(here, markers, s.radius, dist);
  }

  /** A stale list survives an empty marker set: markers that are no longer
      there stay listed until markers arrive again. */
  lemma EmptyMarkersKeepStaleList<L, M>(s: Sidebar<M>, here: L, earlier: seq<M>, dist: (L, M) -> real)
    requires earlier != []
    ensures var after := RunEffect(s, Some(here), earlier, dist);
            RunEffect(after, Some(here), [], dist).filtered == Nearby(here, earlier, s.radius, dist)
  {
  }
}

=== FILE: signup_form.dfy ===
/** The browser's signup form: the password strength meter and the
    per-field error map that decides whether the form is sent to the
    server. */
module SignupForm {
  import opened Chars
  import Auth
  import opened Results

  const EmailInvalidMessage := "Email is invalid"
  const PasswordHintMessage := "Password must contain uppercase, lowercase, numbers, and special characters"
  const MismatchMessage := "Passwords do not match"

  /** What the meter shows: a score and its label. */
  datatype Strength = Strength(score: nat, labelText: string)

  /** The four things the meter rewards. Lowercase letters are not one. */
  datatype Criterion = LongEnough | HasUpper | HasDigit | HasSymbol

  const AllCriteria: set<Criterion> := {LongEnough, HasUpper, HasDigit, HasSymbol}

  /** `[^A-Za-z0-9]` */
  predicate IsNonAlnum(c: char) {
    !IsAlnum(c)
  }

  predicate Meets(p: string, c: Criterion) {
    match c
    case LongEnough => |p| >= 8
    case HasUpper => HasChar(p, IsUpper)
    case HasDigit => HasChar(p, IsDigit)
    case HasSymbol => HasChar(p, IsNonAlnum)
  }

  /** The criteria a password meets. */
  function Met(p: string): set<Criterion> {
    set c | c in AllCriteria && Meets(p, c)
  }

  function Point(b: bool): nat {
    if b then 1 else 0
  }

  /** `strengthLabels[score - 1] || 'Weak'`: an index outside the four
      labels reads undefined and falls back to 'Weak'. */
  function StrengthLabel(score: int): string {
    var labels := ["Weak", "Fair", "Good", "Strong"];
    if 0 <= score - 1 < |labels| then labels[score - 1] else "Weak"
  }

  /** The set `s` with `c` added when `b` holds. */
  function AddIf(s: set<Criterion>, c: Criterion, b: bool): set<Criterion> {
    if b then s + {c} else s
  }

  lemma AddIfSize(s: set<Criterion>, c: Criterion, b: bool)
    requires c !in s
    ensures |AddIf(s, c, b)| == |s| + Point(b)
  {
  }

  /** The criteria met, collected one by one in the meter's order. */
  function Collected(p: string): set<Criterion> {
    var a := AddIf({}, LongEnough, |p| >= 8);
    var b := AddIf(a, HasUpper, HasChar(p, IsUpper));
    var c := AddIf(b, HasDigit, HasChar(p, IsDigit));
    AddIf(c, HasSymbol, HasChar(p, IsNonAlnum))
  }

  lemma CollectedSize(p: string)
    ensures |Collected(p)| == Point(|p| >= 8) + Point(HasChar(p, IsUpper)) + Point(HasChar(p, IsDigit))
                              + Point(HasChar(p, IsNonAlnum))
  {
    var a := AddIf({}, LongEnough, |p| >= 8);
    var b := AddIf(a, HasUpper, HasChar(p, IsUpper));
    var c := AddIf(b, HasDigit, HasChar(p, IsDigit));
    AddIfSize({}, LongEnough, |p| >= 8);
    assert a <= {LongEnough};
    AddIfSize(a, HasUpper, HasChar(p, IsUpper));
    assert b <= {LongEnough, HasUpper};
    AddIfSize(b, HasDigit, HasChar(p, IsDigit));
    assert c <= {LongEnough, HasUpper, HasDigit};
    AddIfSize(c, HasSymbol, HasChar(p, IsNonAlnum));
  }

  lemma MetIsCollected(p: string)
    ensures Met(p) == Collected(p)
  {
    var d := Collected(p);
    assert LongEnough in Met(p) <==> LongEnough in d;
    assert HasUpper in Met(p) <==> HasUpper in d;
    assert HasDigit in Met(p) <==> HasDigit in d;
    assert HasSymbol in Met(p) <==> HasSymbol in d;
    assert forall x :: x in Met(p) <==> x in d;
  }

  /** The number of criteria met, as the meter adds them up. */
  lemma MetSize(p: string)
    ensures |Met(p)| == Point(|p| >= 8) + Point(HasChar(p, IsUpper)) + Point(HasChar(p, IsDigit))
                        + Point(HasChar(p, IsNonAlnum))
  {
    MetIsCollected(p);
    CollectedSize(p);
  }

  /** The meter: an empty password asks for input; otherwise the score is the
      number of criteria met and the label names it. */
  function CheckPasswordStrength(p: string): (r: Strength)
    ensures p == [] ==> r == Strength(0, "Enter password")
    ensures p != [] ==> r.score == |Met(p)|
    ensures r.score <= 4
    ensures p != [] && r.score <= 1 ==> r.labelText == "Weak"
    ensures p != [] && r.score == 2 ==> r.labelText == "Fair"
    ensures p != [] && r.score == 3 ==> r.labelText == "Good"
    ensures p != [] && r.score == 4 ==> r.labelText == "Strong"
  {
    if |p| == 0 then Strength(0, "Enter password")
    else
      var score := Point(|p| >= 8) + Point(Exists(p, IsUpper)) + Point(Exists(p, IsDigit))
                   + Point(Exists(p, IsNonAlnum));
      MetSize(p);
      Strength(score, StrengthLabel(score))
  }

  /** Lowercase letters never move the meter: two passwords of the same
      length that differ only in which lowercase letters they hold score
      the same, whatever the hint text says about lowercase. */
  lemma LowercaseDoesNotScore(p: string, q: string)
    requires |p| == |q|
    requires forall i :: 0 <= i < |p| ==> p[i] == q[i] || (IsLower(p[i]) && IsLower(q[i]))
    ensures CheckPasswordStrength(p) == CheckPasswordStrength(q)
  {
    assert forall i :: 0 <= i < |p| ==> (IsUpper(p[i]) <==> IsUpper(q[i]));
    assert forall i :: 0 <= i < |p| ==> (IsDigit(p[i]) <==> IsDigit(q[i]));
    assert forall i :: 0 <= i < |p| ==> (IsNonAlnum(p[i]) <==> IsNonAlnum(q[i]));
    assert Met(p) == Met(q);
  }

  /** A password of lowercase letters only is never better than 'Weak'. */
  lemma LowercaseOnlyIsWeak(p: string)
    requires p != []
    requires forall i :: 0 <= i < |p| ==> IsLower(p[i])
    ensures CheckPasswordStrength(p).score <= 1
    ensures CheckPasswordStrength(p).labelText == "Weak"
  {
    assert Met(p) <= {LongEnough};
  }

  datatype Field = UsernameField | EmailField | PasswordField | ConfirmPasswordField

  datatype Form = Form(username: string, email: string, password: string, confirmPassword: string)

  /** The form's edge rule `/^[._]|[._]$/`: unlike the server it does not
      look for doubled separators. */
  predicate FormEdgesOk(u: string) {
    |u| > 0 ==> !IsSeparator(u[0]) && !IsSeparator(u[|u| - 1])
  }

  /** `validateForm`: every username rule that fails assigns its message to
      the same key, so the last failing rule's message is the one left. */
  function ValidateForm(f: Form): (errors: map<Field, string>)
    ensures UsernameField in errors <==>
              !Auth.UsernameLengthOk(f.username) || !Auth.UsernameCharsOk(f.username) || !FormEdgesOk(f.username)
    ensures !FormEdgesOk(f.username) ==> errors[UsernameField] == Auth.UsernameEdgeMessage
    ensures FormEdgesOk(f.username) && !Auth.UsernameCharsOk(f.username) ==>
              errors[UsernameField] == Auth.UsernameCharsMessage
    ensures FormEdgesOk(f.username) && Auth.UsernameCharsOk(f.username) && !Auth.UsernameLengthOk(f.username) ==>
              errors[UsernameField] == Auth.UsernameLengthMessage
    ensures EmailField in errors <==> !EmailLike(f.email)
    ensures EmailField in errors ==> errors[EmailField] == EmailInvalidMessage
    ensures PasswordField in errors <==> CheckPasswordStrength(f.password).score < 2
    ensures PasswordField in errors ==> errors[PasswordField] == PasswordHintMessage
    ensures ConfirmPasswordField in errors <==> f.password != f.confirmPassword
    ensures ConfirmPasswordField in errors ==> errors[ConfirmPasswordField] == MismatchMessage
  {
    var u := f.username;
    var e0: map<Field, string> := map[];
    var e1 := if |u| < 2 || |u| > 32 then e0[UsernameField := Auth.UsernameLengthMessage] else e0;
    var e2 := if !AllOf(u, IsUsernameChar) then e1[UsernameField := Auth.UsernameCharsMessage] else e1;
    var e3 := if |u| > 0 && (IsSeparator(u[0]) || IsSeparator(u[|u| - 1]))
              then e2[UsernameField := Auth.UsernameEdgeMessage] else e2;
    var e4 := if !EmailLike(f.email) then e3[EmailField := EmailInvalidMessage] else e3;
    var e5 := if CheckPasswordStrength(f.password).score < 2 then e4[PasswordField := PasswordHintMessage] else e4;
    if f.password != f.confirmPassword then e5[ConfirmPasswordField := MismatchMessage] else e5
  }

  /** Every check of the form passes. */
  predicate FormAcceptable(f: Form) {
    && Auth.UsernameLengthOk(f.username) && Auth.UsernameCharsOk(f.username) && FormEdgesOk(f.username)
    && EmailLike(f.email)
    && |Met(f.password)| >= 2
    && f.password == f.confirmPassword
  }

  /** What pressing "sign up" does: send the form, or show the errors. */
  datatype Submission = SendSignup(form: Form) | ShowErrors(errors: map<Field, string>)

  function HandleSubmit(f: Form): (r: Submission)
    ensures r.SendSignup? <==> FormAcceptable(f)
    ensures r.SendSignup? ==> r.form == f
    ensures r.ShowErrors? ==> r.errors != map[] && r.errors == ValidateForm(f)
  {
    var errors := ValidateForm(f);
    if |errors| == 0 then SendSignup(f) else ShowErrors(errors)
  }

  /** A password the server accepts scores 4, 'Strong', on the meter. */
  lemma ServerPasswordIsStrong(p: string)
    requires Auth.ValidatePassword(p).None?
    ensures CheckPasswordStrength(p) == Strength(4, "Strong")
  {
    var k :| 0 <= k < |p| && IsPasswordSymbol(p[k]);
    assert IsNonAlnum(p[k]);
    assert Met(p) == AllCriteria;
  }

  /** The converse fails: the meter lets through a password the server
      refuses for want of one of its symbols. */
  lemma FormPassesPasswordServerRefuses()
    ensures PasswordField !in ValidateForm(Form("ab", "a@b.c", "Abcdefg1", "Abcdefg1"))
    ensures Auth.ValidatePassword("Abcdefg1") == Some(Auth.PasswordSymbolMessage)
  {
    var p := "Abcdefg1";
    assert IsUpper(p[0]) && IsDigit(p[7]) && IsLower(p[1]);
    assert forall i :: 0 <= i < |p| ==> !IsPasswordSymbol(p[i]) && !IsSpace(p[i]);
    assert HasChar(p, IsUpper) && HasChar(p, IsDigit);
    assert {LongEnough, HasUpper, HasDigit} <= Met(p);
  }

  /** A username the server accepts raises no username error in the form. */
  lemma ServerUsernamePassesForm(f: Form)
    requires Auth.ValidateUsername(f.username).None?
    ensures UsernameField !in ValidateForm(f)
  {
  }

  /** The converse fails: the form lets doubled separators through and the
      server refuses them. */
  lemma FormMissesDoubledSeparators(f: Form)
    requires f.username == "a..b"
    ensures UsernameField !in ValidateForm(f)
    ensures Auth.ValidateUsername(f.username) == Some(Auth.UsernameEdgeMessage)
  {
    var u := f.username;
    assert forall i :: 0 <= i < |u| ==> IsUsernameChar(u[i]);
    assert u[1] == '.' && u[2] == '.';
  }

  /** Where rules overlap, the form reports the last failing rule and the
      server the first: "_" is too short and starts with a separator. */
  lemma FormReportsLastFailingRule(f: Form)
    requires f.username == "_"
    ensures ValidateForm(f)[UsernameField] == Auth.UsernameEdgeMessage
    ensures Auth.ValidateUsername(f.username) == Some(Auth.UsernameLengthMessage)
  {
  }
}

=== FILE: spot_table.dfy ===
/** The `spots` table shared by both generations of the spot routes: a map
    from id to row, the id the serial column hands out next, insertion, and
    the comment append both route files run. */
module SpotTable {
  import opened Js
  import opened Results

  /** One stored row. Each column holds the value the route passed to the
      database; `imageUrl` and `comments` are JSON columns. */
  datatype Spot = Spot(
    id: int,
    username: JsValue,
    lat: JsValue,
    lng: JsValue,
    name: JsValue,
    description: JsValue,
    imageUrl: JsValue,
    comments: JsValue,
    stars: JsValue)

  /** The table and the next value of its serial id column. */
  datatype Table = Table(rows: map<int, Spot>, nextId: int)

  /** A mutating route's outcome: the table afterwards and the reply. */
  datatype Step<+T> = Step(table: Table, reply: Reply<T>)

  /** Every row sits under its own id, and every id was handed out before,
      so the next id is fresh. */
  predicate Valid(t: Table) {
    forall k :: k in t.rows ==> t.rows[k].id == k && k < t.nextId
  }

  function EmptyTable(): (t: Table)
    ensures Valid(t) && t.rows == map[]
  {
    Table(map[], 1)
  }

  /** An order the database may hand the rows back in: every stored id
      exactly once. */
  predicate IsOrdering(t: Table, order: seq<int>) {
    && |order| == |t.rows|
    && (forall i :: 0 <= i < |order| ==> order[i] in t.rows)
    && (forall i, j :: 0 <= i < j < |order| ==> order[i] != order[j])
  }

  /** As many distinct elements of `keys` as `keys` has are all of it. */
  lemma {:induction false} DistinctFill(keys: set<int>, order: seq<int>)
    requires |order| == |keys|
    requires forall i :: 0 <= i < |order| ==> order[i] in keys
    requires forall i, j :: 0 <= i < j < |order| ==> order[i] != order[j]
    ensures forall k :: k in keys ==> k in order
  {
    if order != [] {
      var rest := keys - {order[0]};
      assert keys == rest + {order[0]};
      forall i | 0 <= i < |order[1..]|
        ensures order[1..][i] in rest
      {
        assert order[1..][i] == order[i + 1] != order[0];
      }
      DistinctFill(rest, order[1..]);
    }
  }

  /** `SELECT * FROM spots`: the stored rows, as stored, in the order the
      database chooses. */
  function SelectAll(t: Table, order: seq<int>): (r: seq<Spot>)
    requires IsOrdering(t, order)
    ensures |r| == |t.rows|
    ensures forall i :: 0 <= i < |r| ==> order[i] in t.rows && r[i] == t.rows[order[i]]
  {
    seq(|order|, i requires 0 <= i < |order| => t.rows[order[i]])
  }

  /** Every stored row is listed, and in a well-formed table none twice. */
  lemma SelectAllListsEveryRowOnce(t: Table, order: seq<int>)
    requires IsOrdering(t, order)
    ensures forall k :: k in t.rows ==> exists i :: 0 <= i < |SelectAll(t, order)| && SelectAll(t, order)[i] == t.rows[k]
    ensures Valid(t) ==> forall i, j :: 0 <= i < j < |SelectAll(t, order)| ==> SelectAll(t, order)[i].id != SelectAll(t, order)[j].id
  {
    SelectAllListsEveryRow(t, order);
    if Valid(t) {
      SelectAllIdsDistinct(t, order);
    }
  }

  lemma {:induction false} SelectAllListsEveryRow(t: Table, order: seq<int>)
    requires IsOrdering(t, order)
    ensures forall k :: k in t.rows ==> exists i :: 0 <= i < |SelectAll(t, order)| && SelectAll(t, order)[i] == t.rows[k]
  {
    DistinctFill(t.rows.Keys, order);
    var r := SelectAll(t, order);
    forall k | k in t.rows
      ensures exists i :: 0 <= i < |r| && r[i] == t.rows[k]
    {
      var i :| 0 <= i < |order| && order[i] == k;
      assert r[i] == t.rows[k];
    }
  }

  lemma {:induction false} SelectAllIdsDistinct(t: Table, order: seq<int>)
    requires IsOrdering(t, order) && Valid(t)
    ensures forall i, j :: 0 <= i < j < |SelectAll(t, order)| ==> SelectAll(t, order)[i].id != SelectAll(t, order)[j].id
  {
    var r := SelectAll(t, order);
    forall i, j | 0 <= i < j < |r|
      ensures r[i].id != r[j].id
    {
      assert r[i] == t.rows[order[i]] && r[j] == t.rows[order[j]];
      assert r[i].id == order[i] && r[j].id == order[j];
    }
  }

  /** `INSERT ... RETURNING *`: the row gets the next serial id. */
  function Insert(t: Table, s: Spot): (r: (Table, Spot))
    requires Valid(t)
    ensures Valid(r.0)
    ensures r.1 == s.(id := t.nextId)
    ensures t.nextId !in t.rows && r.0.rows == t.rows[t.nextId := r.1]
    ensures r.0.nextId > t.nextId
  {
    var row := s.(id := t.nextId);
    (Table(t.rows[t.nextId := row], t.nextId + 1), row)
  }

  /** The jsonb `||` of a stored value with a JSON array: two arrays are
      concatenated; any other left side is first wrapped in a one-element
      array (the rule of PostgreSQL's jsonb concatenation operator). */
  function JsonbConcat(left: JsValue, right: seq<JsValue>): (r: JsValue)
    ensures r.Arr? && |r.items| == |right| + (if left.Arr? then |left.items| else 1)
    ensures r.items[|r.items| - |right|..] == right
    ensures left.Arr? ==> r.items[..|left.items|] == left.items
    ensures !left.Arr? ==> r.items[0] == left
  {
    match left
    case Arr(items) => Arr(items + right)
    case _ => Arr([left] + right)
  }

  /** The comments of a row read as a list: an array is its elements, any
      other stored value counts as one element, as jsonb `||` treats it. */
  function CommentList(v: JsValue): seq<JsValue> {
    if v.Arr? then v.items else [v]
  }

  /** `UPDATE spots SET comments = comments || $1 WHERE id = $2 RETURNING *`
      with `$1` the JSON text of `[comment]`. The reply is 200 either way;
      with no such row it carries no spot and nothing changes. */
  function AppendComment(t: Table, id: int, comment: JsValue): (r: Step<Option<Spot>>)
    ensures id !in t.rows ==> r == Step(t, Ok(200, None))
    ensures r.table.rows.Keys == t.rows.Keys && r.table.nextId == t.nextId
    ensures id in t.rows ==> r.reply == Ok(200, Some(r.table.rows[id]))
    ensures forall k :: k in t.rows && k != id ==> r.table.rows[k] == t.rows[k]
    ensures id in t.rows ==> r.table.rows[id].(comments := t.rows[id].comments) == t.rows[id]
    ensures id in t.rows ==>
              r.table.rows[id].comments == Arr(CommentList(t.rows[id].comments) + [InJsonArray(comment)])
  {
    if id in t.rows then
      var row := t.rows[id];
      var row' := row.(comments := JsonbConcat(row.comments, [InJsonArray(comment)]));
      Step(Table(t.rows[id := row'], t.nextId), Ok(200, Some(row')))
    else
      Step(t, Ok(200, None))
  }

  lemma AppendCommentKeepsValid(t: Table, id: int, comment: JsValue)
    requires Valid(t)
    ensures Valid(AppendComment(t, id, comment).table)
  {
  }

  /** Comments only grow: the old list is a prefix of the new one, which
      ends with the new comment. */
  lemma CommentsOnlyGrow(t: Table, id: int, comment: JsValue)
    requires id in t.rows
    ensures var after := CommentList(AppendComment(t, id, comment).table.rows[id].comments);
            && after[..|CommentList(t.rows[id].comments)|] == CommentList(t.rows[id].comments)
            && after[|after| - 1] == InJsonArray(comment)
  {
  }

  /** Two appends one after the other both survive, in call order. */
  lemma TwoAppendsKeepBoth(t: Table, id: int, a: JsValue, b: JsValue)
    requires id in t.rows
    ensures var t2 := AppendComment(AppendComment(t, id, a).table, id, b).table;
            CommentList(t2.rows[id].comments)
              == CommentList(t.rows[id].comments) + [InJsonArray(a), InJsonArray(b)]
  {
    var t1 := AppendComment(t, id, a).table;
    var t2 := AppendComment(t1, id, b).table;
    assert CommentList(t1.rows[id].comments) == CommentList(t.rows[id].comments) + [InJsonArray(a)];
    assert CommentList(t2.rows[id].comments) == CommentList(t1.rows[id].comments) + [InJsonArray(b)];
  }
}

=== FILE: spots_api.dfy ===
/** The current spot routes: listing and fetching with read-time
    normalisation of the JSON columns, and creation with image upload. The
    comment append they share with the older routes is
    `SpotTable.AppendComment`. The blob upload and `JSON.parse` are
    parameters that may fail. */
module SpotsApi {
  import opened Js
  import opened Results
  import opened SpotTable

  const NotFoundMessage := "Spot not found"
  const RequiredMessage := "Latitude, longitude, and name are required"
  const ServerErrorMessage := "Internal server error"

  /** A spot as the routes send it: the stored row spread out, plus the
      normalised `images` and the (possibly replaced) `comments`. */
  datatype SpotView = SpotView(row: Spot, images: seq<JsValue>, comments: JsValue)

  /** The three shapes a stored `image_url` may have, read as a list: an
      array is kept, a bare string becomes a one-element list, anything else
      (null included) the empty list. */
  function NormaliseImages(v: JsValue): (r: seq<JsValue>)
    ensures v.Arr? ==> r == v.items
    ensures v.Str? ==> r == [v]
    ensures !v.Arr? && !v.Str? ==> r == []
  {
    match v
    case Arr(items) => items
    case Str(_) => [v]
    case _ => []
  }

  /** Reading a normalised list back through the rule changes nothing, and
      the list a create stores comes back exactly. */
  lemma NormaliseImagesRoundTrip(v: JsValue, urls: seq<string>)
    ensures NormaliseImages(Arr(NormaliseImages(v))) == NormaliseImages(v)
    ensures NormaliseImages(Arr(Strs(urls))) == Strs(urls)
  {
  }

  /** The stored `comments` as the single-spot route reads them: an array
      is kept, a string goes through `parse` (which fails on text that is
      not JSON), anything else becomes the empty array. */
  function NormaliseComments(v: JsValue, parse: string -> Option<JsValue>): (r: Option<JsValue>)
    ensures v.Arr? ==> r == Some(v)
    ensures v.Str? ==> r == parse(v.s)
    ensures !v.Arr? && !v.Str? ==> r == Some(Arr([]))
  {
    match v
    case Arr(_) => Some(v)
    case Str(s) => parse(s)
    case _ => Some(Arr([]))
  }

  /** Unlike the images, the comments are not always a list after the
      single-spot read: a stored string whose text parses to a number comes
      back as that number. */
  lemma CommentsMayReadBackAsScalar(parse: string -> Option<JsValue>)
    requires parse("5") == Some(Num(5.0))
    ensures NormaliseComments(Str("5"), parse) == Some(Num(5.0))
    ensures !NormaliseComments(Str("5"), parse).value.Arr?
  {
  }

  /** `GET /spots`: the rows `SpotTable.SelectAll` lists, in its order,
      with `images` added and every stored column left as it is. */
  function ListSpots(t: Table, order: seq<int>): (r: seq<SpotView>)
    requires IsOrdering(t, order)
    ensures |r| == |t.rows|
    ensures forall i :: 0 <= i < |r| ==>
              && order[i] in t.rows && r[i].row == t.rows[order[i]]
              && r[i].comments == r[i].row.comments
              && r[i].images == NormaliseImages(r[i].row.imageUrl)
  {
    Views(SelectAll(t, order))
  }

  /** The list route's views are `SpotTable.SelectAll`'s rows, one by one. */
  lemma ListSpotsShowsSelectAll(t: Table, order: seq<int>)
    requires IsOrdering(t, order)
    ensures |ListSpots(t, order)| == |SelectAll(t, order)|
    ensures forall i :: 0 <= i < |SelectAll(t, order)| ==>
              && ListSpots(t, order)[i].row == SelectAll(t, order)[i]
              && ListSpots(t, order)[i].images == NormaliseImages(SelectAll(t, order)[i].imageUrl)
  {
  }

  /** Each row with its normalised image list. */
  function Views(rows: seq<Spot>): (r: seq<SpotView>)
    ensures |r| == |rows|
    ensures forall i :: 0 <= i < |rows| ==>
              r[i] == SpotView(rows[i], NormaliseImages(rows[i].imageUrl), rows[i].comments)
  {
    if rows == [] then []
    else [SpotView(rows[0], NormaliseImages(rows[0].imageUrl), rows[0].comments)] + Views(rows[1..])
  }

  /** `GET /spots/:id`: 404 when no row has the id; 500 when the stored
      comments are a string `JSON.parse` rejects. */
  function GetSpot(t: Table, id: int, parse: string -> Option<JsValue>): (r: Reply<SpotView>)
    ensures id !in t.rows ==> r == Err(404, NotFoundMessage)
    ensures id in t.rows ==> (r.Ok? <==> NormaliseComments(t.rows[id].comments, parse).Some?)
    ensures id in t.rows && r.Err? ==> r == Err(500, ServerErrorMessage)
    ensures r.Ok? ==> && r.status == 200 && id in t.rows && r.value.row == t.rows[id]
                      && r.value.images == NormaliseImages(t.rows[id].imageUrl)
                      && Some(r.value.comments) == NormaliseComments(t.rows[id].comments, parse)
  {
    if id !in t.rows then Err(404, NotFoundMessage)
    else
      var row := t.rows[id];
      match NormaliseComments(row.comments, parse)
      case None => Err(500, ServerErrorMessage)
      case Some(comments) => Ok(200, SpotView(row, NormaliseImages(row.imageUrl), comments))
  }

  /** The text of `s` before its first comma, all of `s` when it has none. */
  function BeforeComma(s: string): (r: string)
    ensures r <= s && ',' !in r
    ensures r == s || s[|r|] == ','
  {
    if s == [] || s[0] == ',' then [] else [s[0]] + BeforeComma(s[1..])
  }

  /** `s.split(',')[1]`: the text between the first comma and the next
      one (or the end); undefined when `s` has no comma. */
  function SecondField(s: string): (r: Option<string>)
    ensures r.None? <==> ',' !in s
    ensures r.Some? ==> && ',' !in r.value
                        && BeforeComma(s) + [','] + r.value <= s
                        && (BeforeComma(s) + [','] + r.value == s
                            || s[|BeforeComma(s)| + 1 + |r.value|] == ',')
  {
    var head := BeforeComma(s);
    if head == s then None
    else
      var field := BeforeComma(s[|head| + 1..]);
      assert s == head + [','] + s[|head| + 1..];
      Some(field)
  }

  /** A data URL `header,payload` whose parts hold no comma gives back its
      payload. */
  lemma {:induction false} SecondFieldOfDataUrl(header: string, payload: string)
    requires ',' !in header && ',' !in payload
    ensures SecondField(header + [','] + payload) == Some(payload)
  {
    var s := header + [','] + payload;
    BeforeCommaOfCommaFree(header, [','] + payload);
    assert s == header + ([','] + payload);
    assert s[|header| + 1..] == payload;
    BeforeCommaOfCommaFree(payload, []);
    assert payload + [] == payload;
  }

  /** The text before the first comma of `a + b`, when `a` has no comma and
      `b` is empty or starts with one, is `a`. */
  lemma {:induction false} BeforeCommaOfCommaFree(a: string, b: string)
    requires ',' !in a && (b == [] || b[0] == ',')
    ensures BeforeComma(a + b) == a
  {
    if a == [] {
      assert a + b == b;
    } else {
      assert (a + b)[0] == a[0] && (a + b)[1..] == a[1..] + b;
      BeforeCommaOfCommaFree(a[1..], b);
    }
  }

  /** The blob store as the loop uses it: `upload(n, payload)` is the URL
      the store answers for the `n`-th upload of the request (counting from
      0), or `None` when decoding or the store call fails. Each upload of a
      request is stored under its own fresh file name, so the number `n`
      is passed along: two equal payloads are two uploads, and the store
      may answer them with two different URLs. */
  type Uploader = (nat, string) -> Option<string>

  /** One image payload of the loop, as the `n`-th upload: it must be a
      string with a comma (`imageBase64.split(',')[1]` is decoded; a
      non-string has no `split` and `Buffer.from(undefined)` throws), and
      the store must answer a non-empty URL. */
  function UploadOne(x: JsValue, n: nat, upload: Uploader): (r: Option<string>)
    ensures r.Some? ==> && r.value != "" && x.Str? && SecondField(x.s).Some?
                        && r == upload(n, SecondField(x.s).value)
    ensures (&& x.Str? && SecondField(x.s).Some? && upload(n, SecondField(x.s).value).Some?
             && upload(n, SecondField(x.s).value).value != "") ==> r.Some?
  {
    if !x.Str? then None
    else
      match SecondField(x.s)
      case None => None
      case Some(payload) =>
        match upload(n, payload)
        case None => None
        case Some(url) => if url == "" then None else Some(url)
  }

  /** The payloads the loop does not skip, in order. */
  function Kept(items: seq<JsValue>): (r: seq<JsValue>)
    ensures |r| <= |items|
    ensures forall i :: 0 <= i < |r| ==> Truthy(r[i])
  {
    if items == [] then []
    else if Falsy(items[0]) then Kept(items[1..])
    else [items[0]] + Kept(items[1..])
  }

  /** Exactly the truthy payloads are kept. */
  lemma {:induction false} KeptAreTheTruthy(items: seq<JsValue>)
    ensures forall x :: x in Kept(items) <==> x in items && Truthy(x)
  {
    if items != [] {
      KeptAreTheTruthy(items[1..]);
      assert items == [items[0]] + items[1..];
    }
  }

  /** Two URL lists joined, failing if either failed. */
  function Join(x: Option<seq<string>>, y: Option<seq<string>>): Option<seq<string>> {
    if x.None? || y.None? then None else Some(x.value + y.value)
  }

  /** One turn of the image loop with `n` URLs collected so far: a falsy
      payload is skipped (no URL), any other one is the `n`-th upload and
      contributes its URL or fails the loop. */
  function UploadTurn(x: JsValue, n: nat, upload: Uploader): (r: Option<seq<string>>)
    ensures Falsy(x) ==> r == Some([])
    ensures Truthy(x) ==> (r.Some? <==> UploadOne(x, n, upload).Some?)
    ensures Truthy(x) && r.Some? ==> r.value == [UploadOne(x, n, upload).value]
  {
    if Falsy(x) then Some([])
    else
      var url := UploadOne(x, n, upload);
      if url.None? then None else Some([url.value])
  }

  /** The URL list of the image loop, starting with `n` URLs already
      collected: one URL per payload that is not skipped, in order, or a
      failure as soon as any one upload fails. */
  function UploadImages(items: seq<JsValue>, n: nat, upload: Uploader): (r: Option<seq<string>>)
    ensures r.Some? ==> |r.value| <= |items|
  {
    if items == [] then Some([])
    else Join(UploadTurn(items[0], n, upload), UploadImages(items[1..], if Falsy(items[0]) then n else n + 1, upload))
  }

  /** Every kept payload, numbered from `n` on, uploads. */
  predicate AllUpload(kept: seq<JsValue>, n: nat, upload: Uploader) {
    forall j :: 0 <= j < |kept| ==> UploadOne(kept[j], n + j, upload).Some?
  }

  lemma AllUploadCons(x: JsValue, kept: seq<JsValue>, n: nat, upload: Uploader)
    ensures AllUpload([x] + kept, n, upload) <==> UploadOne(x, n, upload).Some? && AllUpload(kept, n + 1, upload)
  {
    ShiftedAll(x, kept, n, (v, k) => UploadOne(v, k, upload).Some?);
  }

  /** A property holds of every element numbered from `n` on iff it holds
      of the head, numbered `n`, and of the tail numbered from `n + 1` on. */
  lemma ShiftedAll<A>(x: A, xs: seq<A>, n: nat, p: (A, nat) -> bool)
    ensures (forall j :: 0 <= j < |xs| + 1 ==> p(([x] + xs)[j], n + j))
            <==> p(x, n) && forall j :: 0 <= j < |xs| ==> p(xs[j], n + 1 + j)
  {
    var k := [x] + xs;
    assert k[0] == x;
    if p(x, n) && forall j :: 0 <= j < |xs| ==> p(xs[j], n + 1 + j) {
      forall j | 0 <= j < |k|
        ensures p(k[j], n + j)
      {
        if j > 0 {
          assert k[j] == xs[j - 1];
          assert p(xs[j - 1], n + 1 + (j - 1));
        }
      }
    }
    if forall j :: 0 <= j < |k| ==> p(k[j], n + j) {
      forall j | 0 <= j < |xs|
        ensures p(xs[j], n + 1 + j)
      {
        assert k[j + 1] == xs[j];
        assert p(k[j + 1], n + (j + 1));
      }
    }
  }

  /** All or nothing: the list exists iff every payload that is not skipped
      uploads. */
  lemma {:induction false} UploadImagesAllOrNothing(items: seq<JsValue>, n: nat, upload: Uploader)
    ensures UploadImages(items, n, upload).Some? <==> AllUpload(Kept(items), n, upload)
  {
    if items != [] {
      var x, rest := items[0], items[1..];
      if Falsy(x) {
        UploadImagesAllOrNothing(rest, n, upload);
      } else {
        UploadImagesAllOrNothing(rest, n + 1, upload);
        AllUploadCons(x, Kept(rest), n, upload);
      }
    }
  }

  /** One URL per kept payload. */
  lemma {:induction false} UploadImagesCount(items: seq<JsValue>, n: nat, upload: Uploader)
    requires UploadImages(items, n, upload).Some?
    ensures |UploadImages(items, n, upload).value| == |Kept(items)|
  {
    if items != [] {
      UploadImagesCount(items[1..], if Falsy(items[0]) then n else n + 1, upload);
    }
  }

  /** Payloads and URLs that correspond one to one, the payloads being the
      uploads numbered from `n` on. */
  predicate Matches(kept: seq<JsValue>, urls: seq<string>, n: nat, upload: Uploader) {
    |kept| == |urls| && forall j :: 0 <= j < |kept| ==> UploadOne(kept[j], n + j, upload) == Some(urls[j])
  }

  lemma MatchesCons(x: JsValue, url: string, kept: seq<JsValue>, urls: seq<string>, n: nat, upload: Uploader)
    requires UploadOne(x, n, upload) == Some(url) && Matches(kept, urls, n + 1, upload)
    ensures Matches([x] + kept, [url] + urls, n, upload)
  {
    ShiftedPairs(x, url, kept, urls, n, (v, k) => UploadOne(v, k, upload));
  }

  /** Pairs that correspond under `f` from number `n + 1` on still
      correspond from `n` on once a pair numbered `n` is put in front. */
  lemma ShiftedPairs<A, B>(x: A, y: B, xs: seq<A>, ys: seq<B>, n: nat, f: (A, nat) -> Option<B>)
    requires f(x, n) == Some(y) && |xs| == |ys|
    requires forall j :: 0 <= j < |xs| ==> f(xs[j], n + 1 + j) == Some(ys[j])
    ensures forall j :: 0 <= j < |xs| + 1 ==> f(([x] + xs)[j], n + j) == Some(([y] + ys)[j])
  {
    forall j | 0 <= j < |xs| + 1
      ensures f(([x] + xs)[j], n + j) == Some(([y] + ys)[j])
    {
      if j > 0 {
        assert f(xs[j - 1], n + 1 + (j - 1)) == Some(ys[j - 1]);
      }
    }
  }

  /** The URLs come in the order of the kept payloads, the `j`-th kept
      payload being upload number `n + j`. */
  lemma {:induction false} UploadImagesInOrder(items: seq<JsValue>, n: nat, upload: Uploader)
    requires UploadImages(items, n, upload).Some?
    ensures |UploadImages(items, n, upload).value| == |Kept(items)|
    ensures forall j :: 0 <= j < |Kept(items)| ==>
              UploadOne(Kept(items)[j], n + j, upload) == Some(UploadImages(items, n, upload).value[j])
  {
    UploadImagesMatch(items, n, upload);
  }

  lemma {:induction false} UploadImagesMatch(items: seq<JsValue>, n: nat, upload: Uploader)
    requires UploadImages(items, n, upload).Some?
    ensures Matches(Kept(items), UploadImages(items, n, upload).value, n, upload)
  {
    if items != [] {
      var rest := items[1..];
      if Truthy(items[0]) {
        var tail := UploadImages(rest, n + 1, upload).value;
        UploadImagesMatch(rest, n + 1, upload);
        var url := UploadOne(items[0], n, upload).value;
        assert Kept(items) == [items[0]] + Kept(rest);
        assert UploadImages(items, n, upload).value == [url] + tail;
        MatchesCons(items[0], url, Kept(rest), tail, n, upload);
      } else {
        var tail := UploadImages(rest, n, upload).value;
        UploadImagesMatch(rest, n, upload);
        assert UploadImages(items, n, upload).value == [] + tail;
      }
    }
  }

  /** Two equal payloads in one request are two uploads: each gets the URL
      of its own upload. */
  lemma EqualPayloadsUploadTwice(x: JsValue, upload: Uploader)
    requires UploadOne(x, 0, upload).Some? && UploadOne(x, 1, upload).Some?
    ensures UploadImages([x, x], 0, upload) == Some([UploadOne(x, 0, upload).value, UploadOne(x, 1, upload).value])
  {
    assert Truthy(x);
    assert [x, x][1..] == [x] && [x][1..] == [];
    var u0, u1 := UploadOne(x, 0, upload).value, UploadOne(x, 1, upload).value;
    assert UploadImages([x], 1, upload) == Join(Some([u1]), Some([]));
    assert UploadImages([x, x], 0, upload) == Join(Some([u0]), Some([u1] + []));
    assert [u0] + ([u1] + []) == [u0, u1];
  }

  /** The URL list of a concatenation is the concatenation of the lists,
      the second part's uploads numbered after the first part's (from
      `k`); it fails if either part fails. */
  lemma {:induction false} UploadImagesAppend(a: seq<JsValue>, b: seq<JsValue>, n: nat, k: nat, upload: Uploader)
    requires k == n + |Kept(a)|
    ensures UploadImages(a + b, n, upload) == Join(UploadImages(a, n, upload), UploadImages(b, k, upload))
    decreases |a|, 1
  {
    if a == [] {
      assert a + b == b;
      if UploadImages(b, n, upload).Some? {
        assert [] + UploadImages(b, n, upload).value == UploadImages(b, n, upload).value;
      }
    } else {
      UploadImagesAppendStep(a, b, n, k, upload);
    }
  }

  /** The step of `UploadImagesAppend`: the head's turn joined in front of
      the list for the rest. */
  lemma {:induction false} UploadImagesAppendStep(a: seq<JsValue>, b: seq<JsValue>, n: nat, k: nat, upload: Uploader)
    requires a != [] && k == n + |Kept(a)|
    ensures UploadImages(a + b, n, upload) == Join(UploadImages(a, n, upload), UploadImages(b, k, upload))
    decreases |a|, 0
  {
    var m := if Falsy(a[0]) then n else n + 1;
    UploadImagesAppend(a[1..], b, m, k, upload);
    HeadAndTail(a, b);
    JoinAssoc(UploadTurn(a[0], n, upload), UploadImages(a[1..], m, upload), UploadImages(b, k, upload));
  }

  lemma HeadAndTail<T>(a: seq<T>, b: seq<T>)
    requires a != []
    ensures (a + b)[0] == a[0] && (a + b)[1..] == a[1..] + b
  {
  }

  lemma JoinAssoc(x: Option<seq<string>>, y: Option<seq<string>>, z: Option<seq<string>>)
    ensures Join(x, Join(y, z)) == Join(Join(x, y), z)
  {
    if x.Some? && y.Some? && z.Some? {
      assert x.value + (y.value + z.value) == (x.value + y.value) + z.value;
    }
  }

  /** One more turn of the loop extends the list of the turns before it. */
  lemma UploadImagesSnoc(items: seq<JsValue>, i: nat, upload: Uploader)
    requires i < |items|
    ensures UploadImages(items[..i + 1], 0, upload)
            == Join(UploadImages(items[..i], 0, upload), UploadTurn(items[i], |Kept(items[..i])|, upload))
  {
    var x := items[i];
    var m := |Kept(items[..i])|;
    assert items[..i + 1] == items[..i] + [x];
    assert [x][1..] == [];
    UploadImagesAppend(items[..i], [x], 0, m, upload);
    var turn := UploadTurn(x, m, upload);
    if turn.Some? {
      assert turn.value + [] == turn.value;
    }
  }

  /** A failed prefix fails the whole list. */
  lemma UploadImagesPrefixFails(items: seq<JsValue>, i: nat, upload: Uploader)
    requires i <= |items|
    requires UploadImages(items[..i], 0, upload).None?
    ensures UploadImages(items, 0, upload).None?
  {
    var a, b := items[..i], items[i..];
    JoinFailsLeft(a, b, 0, upload);
    assert a + b == items;
  }

  lemma JoinFailsLeft(a: seq<JsValue>, b: seq<JsValue>, n: nat, upload: Uploader)
    requires UploadImages(a, n, upload).None?
    ensures UploadImages(a + b, n, upload).None?
  {
    UploadImagesAppend(a, b, n, n + |Kept(a)|, upload);
  }

  /** The `for ... of` loop as written: skip falsy payloads, stop at the
      first failed upload, otherwise push each URL; each upload is numbered
      by the URLs pushed before it. It computes exactly the all-or-nothing
      URL list. */
  method UploadImagesLoop(items: seq<JsValue>, upload: Uploader) returns (urls: Option<seq<string>>)
    ensures urls == UploadImages(items, 0, upload)
  {
    var acc: seq<string> := [];
    var i := 0;
    while i < |items|
      invariant 0 <= i <= |items|
      invariant UploadImages(items[..i], 0, upload) == Some(acc)
    {
      var x := items[i];
      UploadImagesCount(items[..i], 0, upload);
      UploadImagesSnoc(items, i, upload);
      if Truthy(x) {
        var url := UploadOne(x, |acc|, upload);
        if url.None? {
          UploadImagesPrefixFails(items, i + 1, upload);
          return None;
        }
        acc := acc + [url.value];
      } else {
        assert acc + [] == acc;
      }
      i := i + 1;
    }
    assert items[..i] == items;
    return Some(acc);
  }

  /** `for (const x of v)`: an array yields its elements, a string its
      characters as one-character strings, anything else is not iterable. */
  function Iterate(v: JsValue): (r: Option<seq<JsValue>>)
    ensures v.Arr? ==> r == Some(v.items)
    ensures v.Str? ==> r.Some? && |r.value| == |v.s| && forall i :: 0 <= i < |v.s| ==> r.value[i] == Str([v.s[i]])
    ensures !v.Arr? && !v.Str? ==> r == None
  {
    match v
    case Arr(items) => Some(items)
    case Str(s) => Some(seq(|s|, i requires 0 <= i < |s| => Str([s[i]])))
    case _ => None
  }

  /** The image payloads of a request body, after the `images = []` default. */
  function ImagesOf(body: map<string, JsValue>): JsValue {
    Default(Prop(body, "images"), Arr([]))
  }

  /** The URL list a create would store for `body`, when the loop succeeds. */
  function StoredUrls(body: map<string, JsValue>, upload: Uploader): Option<seq<string>> {
    match Iterate(ImagesOf(body))
    case None => None
    case Some(items) => UploadImages(items, 0, upload)
  }

  /** `POST /spots`. A falsy `lat`, `lng` or `name` is refused before any
      upload (so a coordinate of exactly 0 is refused); a failed upload or a
      non-iterable `images` fails the whole create; otherwise one row is
      inserted with the uploaded URLs as its image list. */
  function CreateSpot(t: Table, body: map<string, JsValue>, upload: Uploader): (r: Step<Spot>)
    requires Valid(t)
    ensures Valid(r.table)
    ensures Falsy(Prop(body, "lat")) || Falsy(Prop(body, "lng")) || Falsy(Prop(body, "name")) ==>
              r == Step(t, Err(400, RequiredMessage))
    ensures r.reply.Err? ==> r.table == t
    ensures r.reply.Ok? <==> && Truthy(Prop(body, "lat")) && Truthy(Prop(body, "lng")) && Truthy(Prop(body, "name"))
                             && StoredUrls(body, upload).Some?
    ensures r.reply.Ok? ==>
              var s := r.reply.value;
              && r.reply.status == 201 && s.id == t.nextId && t.nextId !in t.rows
              && r.table.rows == t.rows[s.id := s]
              && s.imageUrl == Arr(Strs(StoredUrls(body, upload).value))
              && s.lat == Prop(body, "lat") && s.lng == Prop(body, "lng") && s.name == Prop(body, "name")
              && s.description == ToSql(Prop(body, "description"))
              && s.username == (if Prop(body, "username").Undefined? then Str("Anonymous") else Prop(body, "username"))
              && s.stars == (if Prop(body, "stars").Undefined? then Num(0.0) else Prop(body, "stars"))
              && s.comments == (if Prop(body, "comments").Undefined? then Arr([]) else Prop(body, "comments"))
    ensures r.reply.Err? && !(Falsy(Prop(body, "lat")) || Falsy(Prop(body, "lng")) || Falsy(Prop(body, "name"))) ==>
              r.reply == Err(500, ServerErrorMessage)
  {
    var lat := Prop(body, "lat");
    var lng := Prop(body, "lng");
    var name := Prop(body, "name");
    if Falsy(lat) || Falsy(lng) || Falsy(name) then Step(t, Err(400, RequiredMessage))
    else
      match StoredUrls(body, upload)
      case None => Step(t, Err(500, ServerErrorMessage))
      case Some(urls) =>
        var row := Spot(0,
                        Default(Prop(body, "username"), Str("Anonymous")),
                        lat, lng, name,
                        ToSql(Prop(body, "description")),
                        Arr(Strs(urls)),
                        Default(Prop(body, "comments"), Arr([])),
                        Default(Prop(body, "stars"), Num(0.0)));
        var (t', s) := Insert(t, row);
        Step(t', Ok(201, s))
  }

  /** What a create stores comes back from the single-spot read: the
      uploaded URLs in upload order, and the comments as sent (or `[]`). */
  lemma CreateThenGet(t: Table, body: map<string, JsValue>, upload: Uploader,
                      parse: string -> Option<JsValue>)
    requires Valid(t)
    requires CreateSpot(t, body, upload).reply.Ok?
    requires "comments" in body ==> body["comments"].Arr?
    ensures var step := CreateSpot(t, body, upload);
            var s := step.reply.value;
            GetSpot(step.table, s.id, parse)
              == Ok(200, SpotView(s, Strs(StoredUrls(body, upload).value), s.comments))
  {
  }

  /** Comments sent as a string are stored as that string and parsed on
      the way back: a created spot whose comment text is not JSON cannot be
      read, and otherwise reads back with the parsed value as its comments. */
  lemma CreateThenGetParsesComments(t: Table, body: map<string, JsValue>, upload: Uploader,
                                    parse: string -> Option<JsValue>)
    requires Valid(t)
    requires CreateSpot(t, body, upload).reply.Ok?
    requires Prop(body, "comments").Str?
    ensures var step := CreateSpot(t, body, upload);
            var s := step.reply.value;
            var text := Prop(body, "comments").s;
            && (parse(text).None? ==> GetSpot(step.table, s.id, parse) == Err(500, ServerErrorMessage))
            && (parse(text).Some? ==>
                  GetSpot(step.table, s.id, parse)
                    == Ok(200, SpotView(s, Strs(StoredUrls(body, upload).value), parse(text).value)))
  {
  }

  /** The stored image list never has more URLs than the request had
      payloads, and holds no empty URL. */
  lemma StoredUrlsBounded(body: map<string, JsValue>, upload: Uploader)
    requires Prop(body, "images").Arr?
    requires StoredUrls(body, upload).Some?
    ensures |StoredUrls(body, upload).value| <= |Prop(body, "images").items|
    ensures forall u :: u in StoredUrls(body, upload).value ==> u != ""
  {
    var items := Prop(body, "images").items;
    var urls := StoredUrls(body, upload).value;
    UploadImagesInOrder(items, 0, upload);
    forall u | u in urls
      ensures u != ""
    {
      var j :| 0 <= j < |urls| && urls[j] == u;
      assert Some(urls[j]) == UploadOne(Kept(items)[j], 0 + j, upload);
    }
  }
}
